=== FILE: README.md ===
# Contribution distribution engine, in Dafny

This project models the core of the GitHub history builder: the part that
walks an inclusive range of calendar days, decides how many synthetic commits
each day receives, and builds one commit per unit. The model covers:

- calendar classification (`DateUtil`);
- the intensity and burst model (`TimePatternCalculator`);
- the random helpers (`RandomUtil`), as an explicit stream of draws;
- the commit message and file content generators;
- the uniform (`RANDOM`) and pattern-aware (`INTELLIGENT`) generators;
- configuration defaults, setters and validation (`HistoryConfig`,
  `ConfigurationValidator`);
- the `GitHistoryBuilder` dispatch and its `build` control flow.

Representation choices:

- A `LocalDate` is its epoch day (`Calendar.Date = int`). The civil
  conversion is proved both ways, so within `LocalDate`'s range
  `plusDays(1)` is `+ 1` and `isAfter` is `>`. The model's dates are
  unbounded (see "Left out"). The day of week is Java's `floorMod(epochDay + 3, 7) + 1`, the
  ISO 8601 numbering (Monday = 1, Sunday = 7).
- `java.util.Random` is an explicit stream (`RandomStream.Rng`): an infinite
  sequence of variates in [0, 1) and a read position. Every successful
  `nextInt`, `nextDouble` and `nextBoolean` reads one variate and advances
  by one. `nextInt(min, max)` maps the variate onto `max - min + 1` equal
  slots. Each generator is a pure function of (configuration, stream) that
  returns the stream after its draws, so the draw order of the source is
  explicit in the model.
- Doubles are `real`. A reference that may be null is an `Option`. Java
  `int` arithmetic is written out where it matters: `(max - min) + 1` wraps
  and `(int)` casts saturate (`JavaLang`). Exceptions are values: `Result`
  carries `IllegalArgument(message)`, `NullPointer` or an `IoFailure` from
  the repository layer.
- The two generators share the same `generateCommits` loop, so it is
  modelled once (`Generators.GenerateFrom`), with the generator as a
  parameter that selects the `getCommitsForDate` rule.
- `build` takes the builder's report and returns the updated one. The
  repository manager is a function parameter (`Builder.Persistence`) that
  writes the commits and answers with a path, with a path and the
  exception `close` threw after writing, or with an exception.

Where the code differs from its own comments, the model follows the code:

- `getBurstMultiplier` says it returns a value "between 0.0 and 3.0"; it
  returns only 1.0 or 2.0.
- The `2.0` intensity cap never binds, since the largest product is 1.56.
- `RandomUtil.nextInt` fails not only when `min > max`. When
  `max - min` is `Integer.MAX_VALUE`, the bound `(max - min) + 1` wraps
  negative and `Random.nextInt` throws. The validator admits such a
  configuration (`min = 0`, `max = Integer.MAX_VALUE`), and generation then
  throws on the first day that contributes (`Generators.WideSpanThrows`):
  a run with that span completes only when no day contributes, and then it
  has no commits (`Generators.WideSpanNeverCommits`).

## Model

| member | source | states |
|---|---|---|
| `JavaLang.Wrap32` | src/main/java/com/github/historybuilder/util/RandomUtil.java:18 | 32-bit wrap-around: in-range values are unchanged, and the result is congruent to the input modulo 2^32 |
| `JavaLang.Truncate` | src/main/java/com/github/historybuilder/generator/IntelligentContributionGenerator.java:73 | the `(int)` cast rounds toward zero, from either side |
| `JavaLang.DoubleToInt` | src/main/java/com/github/historybuilder/generator/IntelligentContributionGenerator.java:73 | the `(int)` cast truncates within the `int` range and saturates at `Integer.MAX_VALUE` / `MIN_VALUE` outside it |
| `Calendar.YearOf` | src/main/java/com/github/historybuilder/util/DateUtil.java:36-38 | every epoch day lies in exactly one year, between that year's first day and the next year's |
| `Calendar.YearStartMonotone` | src/main/java/com/github/historybuilder/util/DateUtil.java:36-38 | years start at least 365 days apart, in order |
| `Calendar.MonthFrom` | src/main/java/com/github/historybuilder/util/DateUtil.java:36-38 | a day offset within a year falls in exactly one month's span |
| `Calendar.ToEpochDay` | src/main/java/com/github/historybuilder/util/DateUtil.java:36-38 | a valid civil date maps into its own year, at the offset of its month plus its day |
| `Calendar.ToCivil` | src/main/java/com/github/historybuilder/util/DateUtil.java:36-38 | every epoch day has a valid civil date that maps back to it |
| `Calendar.CivilRoundTrip` | src/main/java/com/github/historybuilder/util/DateUtil.java:36-38 | the conversion is a bijection: converting a valid civil date and back gives the same date |
| `Calendar.Successor` | src/main/java/com/github/historybuilder/generator/RandomContributionGenerator.java:43 | the next civil date is valid and is one epoch day later |
| `Calendar.NextDay` | src/main/java/com/github/historybuilder/generator/RandomContributionGenerator.java:43 | `plusDays(1)` on epoch days is the calendar successor: next day, first of next month, or January 1 of next year |
| `Calendar.NextDayIsSuccessor` | src/main/java/com/github/historybuilder/generator/RandomContributionGenerator.java:43 | `plusDays(1)` lands on the civil successor of the current date |
| `Calendar.GetMonth` | src/main/java/com/github/historybuilder/util/DateUtil.java:36-38 | the month value is always in 1..12 |
| `Calendar.DayOfYear` | src/main/java/com/github/historybuilder/pattern/TimePatternCalculator.java:53 | the day of the year is in 1..length of the year, and counts from January 1 |
| `Calendar.DayOfWeek` | src/main/java/com/github/historybuilder/util/DateUtil.java:22 | the ISO day-of-week value is in 1..7 |
| `Calendar.DayOfWeekSuccessor` | src/main/java/com/github/historybuilder/util/DateUtil.java:22 | the next day's value is one more, with Sunday (7) followed by Monday (1) |
| `Calendar.WeekendPeriodic` | src/main/java/com/github/historybuilder/util/DateUtil.java:21-31 | weekend iff day 6 or 7; periodic with period 7; every date is exactly one of weekday or weekend |
| `Calendar.SeasonOfMonth` | src/main/java/com/github/historybuilder/util/DateUtil.java:47-58 | WINTER iff month in {12,1,2}, SPRING iff {3,4,5}, SUMMER iff {6,7,8}, FALL iff {9,10,11} |
| `Calendar.SeasonsPartitionMonths` | src/main/java/com/github/historybuilder/util/DateUtil.java:49-57 | each season is the image of exactly three months, all in 1..12 |
| `Calendar.DaysBetween` | src/main/java/com/github/historybuilder/util/DateUtil.java:14-16 | for `start <= end + 1` the inclusive count equals the number of dates the generators' loop visits |
| `Calendar.DatesFrom` | src/main/java/com/github/historybuilder/generator/RandomContributionGenerator.java:27-44 | the loop visits `start, start + 1, …, end`: `end - start + 1` dates, none when `start > end` |
| `DateText.DigitValue` | src/main/java/com/github/historybuilder/generator/FileContentGenerator.java:34 | a digit character's value is in 0..9 and renders back to the same character |
| `DateText.Pad2RoundTrip` | src/main/java/com/github/historybuilder/generator/FileContentGenerator.java:34 | `%02d` of 0..99 is two digits that read back as the same number |
| `DateText.Pad4RoundTrip` | src/main/java/com/github/historybuilder/generator/FileContentGenerator.java:35 | a four-digit year renders as four digits that read back as the same year |
| `DateText.Decimal` | src/main/java/com/github/historybuilder/generator/FileContentGenerator.java:35 | years beyond four digits render as decimal digits, with no leading zero, whose decimal value is the year |
| `DateText.IsoDateRoundTrip` | src/main/java/com/github/historybuilder/generator/FileContentGenerator.java:34-35 | for years 0..9999, `LocalDate.toString()` is the 10-character `YYYY-MM-DD` form, and parsing it gives back the date |
| `RandomStream.Scale` | src/main/java/com/github/historybuilder/util/RandomUtil.java:18 | a draw mapped onto `lo..hi` lies in `lo..hi` |
| `RandomStream.ScaleSlot` | src/main/java/com/github/historybuilder/util/RandomUtil.java:18 | each value of `lo..hi` is hit by exactly the variates of its own slot of width `1/(hi-lo+1)` (uniformity) |
| `RandomStream.ScaleHits` | src/main/java/com/github/historybuilder/util/RandomUtil.java:18 | every value of the range is reachable by some variate |
| `RandomStream.Uniform` | src/main/java/com/github/historybuilder/util/RandomUtil.java:14-19 | a draw in `min..max`, namely `min + ⌊u·(max − min + 1)⌋` for the current variate `u`, that consumes exactly one variate |
| `RandomStream.NextIntUniform` | src/main/java/com/github/historybuilder/util/RandomUtil.java:14-19 | a successful `nextInt(min, max)` answers `min + k` exactly when the variate falls in the `k`-th of `max − min + 1` equal slots of `[0, 1)` |
| `RandomStream.NextInt` | src/main/java/com/github/historybuilder/util/RandomUtil.java:14-19 | fails iff `min > max` (with "min must be <= max") or the span overflows `int`; otherwise `min + ⌊u·(max − min + 1)⌋` for the current variate `u`, a value in `min..max` from one draw; `nextInt(k, k) = k` |
| `RandomStream.NextDouble` | src/main/java/com/github/historybuilder/util/RandomUtil.java:24-26 | returns exactly the variate at the current position, in [0, 1), and advances by one |
| `RandomStream.NextBoolean` | src/main/java/com/github/historybuilder/util/RandomUtil.java:31-36 | fails iff `p < 0` or `p > 1`, with the source's message; otherwise true iff `nextDouble()` at the same position is below `p`, so `p = 0` is always false and `p = 1` always true; one draw |
| `RandomStream.CallsReadOneDraw` | src/main/java/com/github/historybuilder/util/RandomUtil.java:14-36 | each call's result depends only on the variate at the current position |
| `TimePattern.IntensityMultiplier` | src/main/java/com/github/historybuilder/pattern/TimePatternCalculator.java:16-45 | the intensity is the week factor times the season factor, lies in [0.35, 1.56] (so the 2.0 cap never binds), and is at most 0.65 on weekends and at least 0.84 on weekdays |
| `TimePattern.WeekendBelowWeekday` | src/main/java/com/github/historybuilder/pattern/TimePatternCalculator.java:20-41 | within one season, a weekend is strictly less intense than a weekday |
| `TimePattern.BurstHash` | src/main/java/com/github/historybuilder/pattern/TimePatternCalculator.java:53-54 | the hash of a day of the year lies in 0..99 |
| `TimePattern.BurstMultiplier` | src/main/java/com/github/historybuilder/pattern/TimePatternCalculator.java:51-60 | the result is 1.0 or 2.0 (not the documented 0.0..3.0); chance ≤ 0 never bursts, chance ≥ 1 always does |
| `TimePattern.BurstDependsOnDayOfYear` | src/main/java/com/github/historybuilder/pattern/TimePatternCalculator.java:53-56 | two dates with the same day of the year get the same multiplier |
| `TimePattern.BurstMonotone` | src/main/java/com/github/historybuilder/pattern/TimePatternCalculator.java:56 | a burst at some chance is a burst at every higher chance |
| `TimePattern.BurstHashPeriodic` | src/main/java/com/github/historybuilder/pattern/TimePatternCalculator.java:54 | the hash depends only on the day of the year modulo 100 |
| `TimePattern.LowHashResidues` | src/main/java/com/github/historybuilder/pattern/TimePatternCalculator.java:54-56 | `(17r + 13) mod 100 < 5` exactly for the residues 11, 17, 23, 64, 70 |
| `TimePattern.BurstDaysAtFivePercent` | src/main/java/com/github/historybuilder/pattern/TimePatternCalculator.java:54-56 | at chance 0.05 a date bursts iff its day of the year is 11, 17, 23, 64 or 70 modulo 100 (day 11 bursts, day 1 does not) |
| `CommitMessages.PhrasesOf` | src/main/java/com/github/historybuilder/generator/CommitMessageGenerator.java:82-90 | each of the feature, fix and refactor tables has ten phrases, so every drawn index is in bounds |
| `CommitMessages.GenerateCommitMessage` | src/main/java/com/github/historybuilder/generator/CommitMessageGenerator.java:78-96 | the first draw picks the category: category 3 gives the DOCS entry the second draw selects; categories 0..2 give that category's phrase selected by the second draw, a space, and the module selected by the third; never the unreachable "Update code"; 3 draws, or 2 for documentation |
| `CommitMessages.ModulesAreLong` | src/main/java/com/github/historybuilder/generator/CommitMessageGenerator.java:62-73 | every module suffix is longer than 11 characters, so a suffixed message is never "Update code" |
| `CommitMessages.GenerateCommitMessageWithEmoji` | src/main/java/com/github/historybuilder/generator/CommitMessageGenerator.java:101-105 | the result is the emoji the first draw selects from the 8-entry table, a space, and the plain message generated from the following draws, leaving the stream where that message leaves it |
| `CommitMessages.EveryEmojiMessageReachable` | src/main/java/com/github/historybuilder/generator/CommitMessageGenerator.java:101-105 | every emoji followed by every plain message is produced by some stream |
| `CommitMessages.MessageReadsItsDraws` | src/main/java/com/github/historybuilder/generator/CommitMessageGenerator.java:78-96 | the message depends only on the variates it reads: two streams agreeing over that span give the same message and stop at the same position |
| `CommitMessages.EveryMessageReachable` | src/main/java/com/github/historybuilder/generator/CommitMessageGenerator.java:10-95 | every string of the 3·10·10 + 10 message set is produced by some stream, so the set is exactly the reachable messages |
| `FileContent.GenerateContent` | src/main/java/com/github/historybuilder/generator/FileContentGenerator.java:13-28 | one of the ten snippets, chosen by one in-bounds draw |
| `FileContent.EveryContentReachable` | src/main/java/com/github/historybuilder/generator/FileContentGenerator.java:13-28 | every one of the ten snippets is produced by some stream |
| `FileContent.LogLineLayout` | src/main/java/com/github/historybuilder/generator/FileContentGenerator.java:34 | the position of every field of a 39-character log line |
| `FileContent.LogLineRoundTrip` | src/main/java/com/github/historybuilder/generator/FileContentGenerator.java:33-39 | a log line of a four-digit year is 39 characters and parses back to exactly its date, hour, minute and second |
| `FileContent.GenerateLogLine` | src/main/java/com/github/historybuilder/generator/FileContentGenerator.java:33-39 | three draws, in hour, minute, second order, each rendered as two digits; the line states the date and those three values |
| `FileContent.LogLineReadsItsDraws` | src/main/java/com/github/historybuilder/generator/FileContentGenerator.java:33-39 | the log line depends only on its three draws: two streams agreeing over them give the same line and stop at the same position |
| `Config.Get` | src/main/java/com/github/historybuilder/config/HistoryConfig.java:55-57 | each getter answers a value of its own field |
| `Config.Apply` | src/main/java/com/github/historybuilder/config/HistoryConfig.java:59-61 | a setter changes its own field to the argument and leaves every other field unchanged |
| `Config.GettersDetermineConfig` | src/main/java/com/github/historybuilder/config/HistoryConfig.java:12-52 | the fourteen getters determine the configuration |
| `Config.SetCurrentValueIsIdentity` | src/main/java/com/github/historybuilder/config/HistoryConfig.java:59-61 | setting a field to its current value changes nothing |
| `Config.LastSet` | src/main/java/com/github/historybuilder/config/HistoryConfig.java:55-165 | the last setter call for a field: it is a call for that field and no later call sets the field; none exactly when no call sets it |
| `Config.GetAfterCalls` | src/main/java/com/github/historybuilder/config/HistoryConfig.java:55-165 | after any sequence of setter calls, each getter returns the value last passed to its setter, or the initial value |
| `Config.ApplyAllSnoc` | src/main/java/com/github/historybuilder/config/HistoryConfig.java:55-165 | a sequence of setter calls followed by one more is the sequence, then that call |
| `Validator.FirstKept` | src/main/java/com/github/historybuilder/config/ConfigurationValidator.java:23 | the first loop of `trim()` skips exactly the leading characters ≤ U+0020 and stops at a non-blank or the end |
| `Validator.LastKept` | src/main/java/com/github/historybuilder/config/ConfigurationValidator.java:23 | the second loop of `trim()` drops only trailing characters ≤ U+0020, never moves before the start, and stops after a non-blank |
| `Validator.Trim` | src/main/java/com/github/historybuilder/config/ConfigurationValidator.java:23 | `trim()` is a slice of its input; every dropped character is blank and the kept part starts and ends with non-blanks |
| `Validator.TrimEmptyIffBlank` | src/main/java/com/github/historybuilder/config/ConfigurationValidator.java:23-29 | `trim().isEmpty()` iff every character is ≤ U+0020 |
| `Validator.MessagesDistinct` | src/main/java/com/github/historybuilder/config/ConfigurationValidator.java:23-57 | the nine messages are pairwise distinct, so the message identifies the failing check |
| `Validator.NullMessageUnused` | src/main/java/com/github/historybuilder/config/ConfigurationValidator.java:19-57 | no field check reports the null-configuration message, so that message means a null configuration |
| `Validator.FirstFailure` | src/main/java/com/github/historybuilder/config/ConfigurationValidator.java:19-59 | the index of the first failing check: it fails and all earlier ones pass; none iff all pass |
| `Validator.Validate` | src/main/java/com/github/historybuilder/config/ConfigurationValidator.java:16-62 | a null configuration, and only that, fails with "Configuration cannot be null" |
| `Validator.SkipPassing` | src/main/java/com/github/historybuilder/config/ConfigurationValidator.java:19-59 | a passing check does not change where the first failure is |
| `Validator.StopsAtNameGiven` | src/main/java/com/github/historybuilder/config/ConfigurationValidator.java:23-25 | a null or blank author name is reported first |
| `Validator.StopsAtEmailGiven` | src/main/java/com/github/historybuilder/config/ConfigurationValidator.java:27-29 | with a name given, a null or blank email is reported |
| `Validator.StopsAtYearsBackPositive` | src/main/java/com/github/historybuilder/config/ConfigurationValidator.java:31-33 | with earlier checks passing, `yearsBack < 1` is reported |
| `Validator.StopsAtMinNonNegative` | src/main/java/com/github/historybuilder/config/ConfigurationValidator.java:35-37 | with earlier checks passing, `min < 0` is reported |
| `Validator.StopsAtMaxAtLeastMin` | src/main/java/com/github/historybuilder/config/ConfigurationValidator.java:39-41 | with earlier checks passing, `max < min` is reported |
| `Validator.StopsAtProbabilityInRange` | src/main/java/com/github/historybuilder/config/ConfigurationValidator.java:43-45 | with earlier checks passing, a probability outside [0, 1] is reported |
| `Validator.StopsAtBoostNonNegative` | src/main/java/com/github/historybuilder/config/ConfigurationValidator.java:47-49 | with earlier checks passing, a negative boost is reported |
| `Validator.StopsAtReductionNonNegative` | src/main/java/com/github/historybuilder/config/ConfigurationValidator.java:51-53 | with earlier checks passing, a negative reduction is reported |
| `Validator.StopsAtDatesOrdered` | src/main/java/com/github/historybuilder/config/ConfigurationValidator.java:55-59 | with earlier checks passing, two non-null dates with start after end are reported |
| `Validator.ChainPasses` | src/main/java/com/github/historybuilder/config/ConfigurationValidator.java:61 | when every check passes, validation passes |
| `Validator.ValidateReportsFirstFailure` | src/main/java/com/github/historybuilder/config/ConfigurationValidator.java:19-59 | the `if` chain equals the reference reading: the message of the first failing check in source order, or success |
| `Validator.ValidateSpec` | src/main/java/com/github/historybuilder/config/ConfigurationValidator.java:16-61 | validation succeeds iff every check passes; a failure names a failing check all of whose predecessors pass |
| `Validator.ValidConfigRanges` | src/main/java/com/github/historybuilder/config/ConfigurationValidator.java:23-59 | a validated configuration has non-null name and email, `yearsBack ≥ 1`, `0 ≤ min ≤ max`, `p ∈ [0,1]`, non-negative factors, and ordered dates when both are set (`start == end` accepted) |
| `Validator.DefaultConfigIsValid` | src/main/java/com/github/historybuilder/config/HistoryConfig.java:12-52 | the defaults pass validation, their null dates skipping the order check |
| `Generators.CappedProduct` | src/main/java/com/github/historybuilder/generator/IntelligentContributionGenerator.java:64-67 | `min(p · factor · intensity, 1.0)`: the product when it is below 1 and exactly 1 when it reaches 1; non-negative for non-negative factors, and 0 when `p` or the factor is 0 |
| `Generators.CappedProductMonotone` | src/main/java/com/github/historybuilder/generator/IntelligentContributionGenerator.java:64-67 | for non-negative factors the capped product never falls when `p` rises |
| `Generators.AdjustedProbability` | src/main/java/com/github/historybuilder/generator/IntelligentContributionGenerator.java:54-67 | the probability passed to `nextBoolean` is the configured probability times the day's factor (reduction on weekends, boost on weekdays) times the intensity multiplier when that product is below 1, and exactly 1 when it reaches 1; so it is at most 1, and 0 when the configured probability or the factor is 0 |
| `Generators.AdjustedProbabilityMonotone` | src/main/java/com/github/historybuilder/generator/IntelligentContributionGenerator.java:54-67 | raising the configured probability never lowers a day's adjusted probability when the day's factor is non-negative |
| `Generators.AdjustedProbabilityInRange` | src/main/java/com/github/historybuilder/generator/IntelligentContributionGenerator.java:54-69 | for a validated configuration the probability passed to `nextBoolean` is in [0, 1], so `nextBoolean` never throws |
| `Generators.Amplify` | src/main/java/com/github/historybuilder/generator/IntelligentContributionGenerator.java:73 | `(int)(b · burst)` is `b` off burst days and `2b` on them, saturating at the `int` range, never clamped to `max` |
| `Generators.CommitsForDate` | src/main/java/com/github/historybuilder/generator/IntelligentContributionGenerator.java:52-77 | both `getCommitsForDate` rules (also RandomContributionGenerator.java lines 51-57): the count is 0 or admissible (in `min..max`; or `b` / `2b` with `b` in `min..max` for the pattern-aware rule); probability 0 gives 0 after one draw; 1 or 2 draws; fails only with the sampler's exceptions, never on safe inputs; on safe inputs the day contributes exactly when the first variate is below the day's probability, and then the count is the second variate scaled to `min..max` (doubled on burst days for the pattern-aware rule) after two draws, else 0 after one |
| `Generators.IntelligentCounts` | src/main/java/com/github/historybuilder/generator/IntelligentContributionGenerator.java:69-76 | off burst days the count is in `min..max`; on burst days it is even and in `2·min..2·max` |
| `Generators.AmplifiedRange` | src/main/java/com/github/historybuilder/generator/IntelligentContributionGenerator.java:72-73 | a base count in `min..max` is unchanged by multiplier 1.0 and exactly doubled, hence even and in `2·min..2·max`, by 2.0 |
| `Generators.MakeCommit` | src/main/java/com/github/historybuilder/generator/RandomContributionGenerator.java:32-40 | one commit, drawn in the source's order: the hour from the first variate (0..23), the minute from the second (0..59), then the message from the following draws, then the log line from the draws after the message, which also sets the final stream; the loop's date, second 0, the config's author, path "contributions.log", and a log line stating the same date |
| `Generators.DayCommits` | src/main/java/com/github/historybuilder/generator/RandomContributionGenerator.java:31-41 | the inner loop emits exactly `max(n, 0)` commits for the day, each of that shape |
| `Generators.GenerateFrom` | src/main/java/com/github/historybuilder/generator/RandomContributionGenerator.java:27-45 | the date loop: empty when `start > end`; every commit dated in range with fixed path, author and second 0; ordered by date; each day's count admissible by the generator's rule; the first day holds exactly the count drawn for it (none when that count is 0 or less) |
| `Generators.JoinDays` | src/main/java/com/github/historybuilder/generator/RandomContributionGenerator.java:28-44 | appending the following days' commits to one day's commits keeps range, order and per-day counts, and the first day holds exactly its own count |
| `Generators.GenerateFromStep` | src/main/java/com/github/historybuilder/generator/RandomContributionGenerator.java:28-44 | one turn of the loop: the day's commits followed by those of the remaining days |
| `Generators.GenerateCommits` | src/main/java/com/github/historybuilder/generator/RandomContributionGenerator.java:23-48 | a null start or end date throws a null pointer exception; `start > end` gives an empty list; otherwise the properties of the loop, with the config's author, including that the start date holds exactly the count drawn for it |
| `Generators.CountOn` | src/main/java/com/github/historybuilder/generator/RandomContributionGenerator.java:31-41 | the number of commits on a date is at most the list's length |
| `Generators.LengthIsSumOfDailyCounts` | src/main/java/com/github/historybuilder/generator/RandomContributionGenerator.java:27-45 | a list dated within `start..end` is as long as the sum of its per-day counts |
| `Generators.GeneratedLengthIsSumOfDailyCounts` | src/main/java/com/github/historybuilder/generator/RandomContributionGenerator.java:27-45 | the generated list's length is the sum over `start..end` of per-day counts, each admissible; day `start + k` holds exactly the `k`-th count the walk draws (none when it is 0 or less), one count per day, and the length is the total of those counts |
| `Generators.DailyCountsFollowDraws` | src/main/java/com/github/historybuilder/generator/RandomContributionGenerator.java:27-45 | on every day `d + k` of a completed walk the list holds exactly the count `getCommitsForDate` drew that day, the walk draws one count per day, and the list's length is their total |
| `Generators.CountsJoin` | src/main/java/com/github/historybuilder/generator/RandomContributionGenerator.java:28-44 | one day's commits placed before later days' commits: that day holds its own count, each later day what it held before |
| `Generators.ZeroProbabilityGeneratesNothing` | src/main/java/com/github/historybuilder/generator/RandomContributionGenerator.java:51-57 | probability 0 gives an empty list for either generator, after exactly one draw per day of the range |
| `Generators.FixedDailyCount` | src/main/java/com/github/historybuilder/generator/RandomContributionGenerator.java:53-54 | the uniform generator with probability 1 and `min = max = k` emits `k · daysBetween(start, end)` commits |
| `Generators.CertainCount` | src/main/java/com/github/historybuilder/generator/RandomContributionGenerator.java:51-57 | a day drawn with probability 1 and `min = max` always contributes after two draws: `min` for the uniform rule, `min` times the burst for the pattern-aware rule (IntelligentContributionGenerator.java lines 69-74) |
| `Generators.ValidConfigNeverFails` | src/main/java/com/github/historybuilder/generator/IntelligentContributionGenerator.java:54-72 | a validated configuration whose count span fits in an `int` never makes either generator throw |
| `Generators.WideSpanThrows` | src/main/java/com/github/historybuilder/util/RandomUtil.java:18 | a validated configuration with `min = 0`, `max = Integer.MAX_VALUE` throws "bound must be positive" when the first day's probability draw succeeds (first variate below the day's probability) |
| `Generators.WideSpanNeverCommits` | src/main/java/com/github/historybuilder/generator/RandomContributionGenerator.java:27-45 | with that configuration a walk that completes has no commits: the first day that contributes throws (RandomUtil.java line 18) |
| `Generators.January11` | src/main/java/com/github/historybuilder/pattern/TimePatternCalculator.java:53-57 | epoch day 19733 is 2024-01-11 (year 2024, month 1, day 11), a Thursday, day 11 of its year, and a burst day at 5% |
| `Generators.FullProbabilityOnWeekdays` | src/main/java/com/github/historybuilder/generator/IntelligentContributionGenerator.java:54-67 | with probability 1 and boost 1.5 every weekday is drawn with probability exactly 1, since even the lowest weekday intensity 0.84 reaches the cap |
| `Generators.WeekdayCount` | src/main/java/com/github/historybuilder/generator/IntelligentContributionGenerator.java:52-77 | with probability 1, boost 1.5 and `min = max = 1`, a weekday gets 2 commits iff it is a burst day, else 1 |
| `Generators.BurstExceedsMax` | src/main/java/com/github/historybuilder/generator/IntelligentContributionGenerator.java:69-74 | with `p = 1` and `min = max = 1`, the intelligent generator returns 2 commits on 2024-01-11, above `max` |
| `Generators.September2` | src/main/java/com/github/historybuilder/pattern/TimePatternCalculator.java:53-59 | epoch day 19968 is 2024-09-02 (year 2024, month 9, day 2), a Monday, day 246 of its year (hash 95), and not a burst day |
| `Generators.WeekdayWithoutBurst` | src/main/java/com/github/historybuilder/generator/IntelligentContributionGenerator.java:69-74 | with `p = 1` and `min = max = 1`, the intelligent generator returns exactly 1 commit on 2024-09-02 |
| `Generators.CountReadsItsDraws` | src/main/java/com/github/historybuilder/generator/RandomContributionGenerator.java:51-57 | a day's count depends only on the variates it reads (one, or two when the day contributes): two streams agreeing over them give the same count and position |
| `Generators.CommitReadsItsDraws` | src/main/java/com/github/historybuilder/generator/RandomContributionGenerator.java:32-40 | one commit depends only on its own draws: two streams agreeing over them give the same commit and position |
| `Generators.DayReadsItsDraws` | src/main/java/com/github/historybuilder/generator/RandomContributionGenerator.java:31-41 | one day's commits depend only on the variates they read |
| `Generators.DayRunReadsItsDraws` | src/main/java/com/github/historybuilder/generator/RandomContributionGenerator.java:29-41 | one turn of the date loop, the count and then that many commits, depends only on the variates it reads: two streams agreeing over them give the same commits and position |
| `Generators.GenerateFromWalks` | src/main/java/com/github/historybuilder/generator/RandomContributionGenerator.java:27-45 | the date loop is a walk from start to end that runs one day at a time and stops at the first exception, the day's commits coming before those of the later days |
| `Generators.RunReadsItsDraws` | src/main/java/com/github/historybuilder/generator/RandomContributionGenerator.java:27-45 | a successful date loop depends only on the variates it reads: a stream agreeing over that span gives the same commits and stops at the same position |
| `Generators.SeedDeterminesHistory` | src/main/java/com/github/historybuilder/util/RandomUtil.java:41-43 | after `setSeed`, the generated history depends only on the variates the seed determines, not on what was read before: two seeded streams agreeing on the prefix the run reads give the same commits |
| `Generators.LogTimeDrawnSeparately` | src/main/java/com/github/historybuilder/generator/FileContentGenerator.java:36-38 | the log line's time is drawn separately from the commit's: a stream exists on which the commit is at hour 0 and its log line says hour 23 |
| `Builder.CreateGenerator` | src/main/java/com/github/historybuilder/GitHistoryBuilder.java:95-105 | RANDOM maps to the uniform generator; INTELLIGENT, SEASONAL and WEEKDAY_BIASED map to the intelligent one; a null pattern throws |
| `Builder.Build` | src/main/java/com/github/historybuilder/GitHistoryBuilder.java:33-82 | `success` iff validation, dispatch, generation and (outside dry run) persistence all succeed; an invalid config only records failure and the validator's message; `totalDaysWithCommits` is never set; a success keeps an earlier error; the repository path changes only for a validated configuration outside dry run |
| `Builder.PathRecordedOnceWritten` | src/main/java/com/github/historybuilder/GitHistoryBuilder.java:56-75 | once the commits are written the path is recorded: on success; also when `close` then throws, beside that failure; a failure before the writing completes leaves the path as it was |
| `Builder.TotalsFollowGeneration` | src/main/java/com/github/historybuilder/GitHistoryBuilder.java:47-49 | once generation succeeds, `totalCommitsGenerated` is the list's size and the dates are the config's |
| `Builder.NothingCountedBeforeGeneration` | src/main/java/com/github/historybuilder/GitHistoryBuilder.java:41-45 | a failure in validation, dispatch or generation leaves totals, dates and path unchanged |
| `Builder.DryRunIgnoresPersistence` | src/main/java/com/github/historybuilder/GitHistoryBuilder.java:51-54 | in dry-run mode the repository manager is never used, and `repositoryPath` stays as it was |
| `Builder.ValidatedDryRunSucceeds` | src/main/java/com/github/historybuilder/GitHistoryBuilder.java:41-70 | a validated configuration with a pattern, both dates and an `int`-sized span always succeeds in dry run |
| `Builder.DefaultDryRunSucceeds` | src/main/java/com/github/historybuilder/GitHistoryBuilder.java:41-70 | the defaults, given ordered dates and dry run, build successfully |

## Left out

- `java.util.Random` internals: the linear congruential generator is not
  reproduced. The stream is an arbitrary sequence of variates in [0, 1),
  and `Random.nextInt(bound)` is the slot map `floor(u · bound)`. Its
  rejection sampling is not modelled.
- IEEE-754 rounding and NaN: doubles are exact reals, so threshold edge
  cases caused by rounding (for example `0.05 * 100`) are out of scope.
- `ZoneId.systemDefault()`: timestamps are (date, hour, minute, second)
  without a zone. The `%n` separator is fixed to `"\n"`.
- Logging, the wall clock, and `executionTimeMs` in `build`.
- `Application` (command-line parsing, console output, `System.exit`) and
  `ConfigurationLoader` (YAML/JSON reading, `LocalDate.now()`): I/O.
- `ProgressTracker` and the rest of `ExecutionReport` (printing): only the
  report fields `build` writes are modelled.
- `GitRepositoryManager` is not part of this model. `initializeRepository`,
  `writeCommits`, `getRepositoryDirectory` and `close` are one function
  parameter that yields a path or an exception.
- Builder.Build: an exception is recorded as the exception itself, not as
  the text of `getMessage()`. The text of a null pointer exception's
  message is not modelled. The state of the shared random generator after
  a failed run is not returned.
- Generators.GenerateFrom and Generators.GenerateCommits: `LocalDate`'s
  range is not modelled. Dates are unbounded integers, so a range ending at
  `LocalDate.MAX` completes, where Java's `plusDays(1)` after the last day
  throws a `DateTimeException`.
- Generators.GenerateFrom and Generators.GenerateCommits: their own
  contracts tie only the first day's commits to the count drawn for it.
  Each later day's draw reads the stream the earlier days left, so the tie
  for every day is stated by `Generators.DailyCountsFollowDraws` and
  `Generators.GeneratedLengthIsSumOfDailyCounts` over `DrawnCounts`.
- Generators.GenerateFrom: the order of commits within one day is insertion
  order. The contract states order by date only, not the order of times
  within a day, because the source does not sort them.
- `DistributionPattern.SEASONAL` and `WEEKDAY_BIASED` have no generator of
  their own. They select the intelligent generator, as `createGenerator`
  does.
- Date text for years outside 0..9999 is rendered with Java's sign rules
  but not parsed back. The log line round trip is stated for four-digit
  years only.

=== FILE: builder.dfy ===
/** `GitHistoryBuilder`: the generator dispatch, and the control flow of
    `build` that validates, generates, records the totals and hands the
    commits to the repository manager.  The manager is a parameter; the
    report is threaded through, since `build` updates the builder's one
    report in place. */
module Builder {
  import opened JavaLang
  import opened Calendar
  import opened RandomStream
  import opened Model
  import opened Config
  import opened Validator
  import opened Generators

  /** `createGenerator`: RANDOM selects the uniform generator and every other
      pattern the intelligent one; a null pattern fails in the `switch`. */
  function CreateGenerator(pattern: Option<DistributionPattern>): (r: Result<Generator>)
    ensures pattern.None? <==> r == Err(NullPointer)
    ensures r == Ok(RandomGenerator) <==> pattern == Some(Random)
    ensures r == Ok(IntelligentGenerator) <==> pattern.Some? && pattern.value != Random
  {
    match pattern
    case None => Err(NullPointer)
    case Some(Random) => Ok(RandomGenerator)
    case Some(_) => Ok(IntelligentGenerator)
  }

  /** The fields of `ExecutionReport` that `build` writes or leaves alone;
      `error` is the exception whose message becomes `errorMessage`. */
  datatype Report = Report(
    totalCommitsGenerated: int,
    totalDaysWithCommits: int,
    startDate: Option<Date>,
    endDate: Option<Date>,
    repositoryPath: Option<string>,
    success: bool,
    error: Option<Failure>)

  /** A freshly constructed report: Java's zero, null and false defaults. */
  const NEW_REPORT := Report(0, 0, None, None, None, false, None)

  /** What the repository manager made of the commits: the absolute path of
      the repository it wrote; that path together with the exception
      `close` threw after the writing succeeded; or the exception that
      escaped before a path was recorded (from `initializeRepository` or
      `writeCommits`, or from a `close` whose exception replaced the one
      `writeCommits` threw). */
  datatype Persisted =
    | Written(path: string)
    | CloseFailed(path: string, failure: Failure)
    | PersistFailed(failure: Failure)

  /** The repository manager: creates the repository the configuration
      names and writes the commits into it. */
  type Persistence = (HistoryConfig, seq<Commit>) -> Persisted

  /** The `catch` block: the run failed with `e`, and nothing else changes. */
  function Failed(report: Report, e: Failure): Report {
    report.(success := false, error := Some(e))
  }

  /** `build`.  Every exception is caught and recorded; a success does not
      clear an error a previous run left in the report. */
  function Build(config: Option<HistoryConfig>, report: Report, g: Rng, persist: Persistence): (r: Report)
    ensures r.totalDaysWithCommits == report.totalDaysWithCommits
    ensures Validate(config).Fail? ==>
      r == Failed(report, IllegalArgument(Validate(config).message))
    ensures r.success <==>
      && Validate(config) == Pass
      && CreateGenerator(config.value.pattern).Ok?
      && GenerateCommits(CreateGenerator(config.value.pattern).value, config.value, g).Ok?
      && (config.value.dryRun
          || persist(config.value,
               GenerateCommits(CreateGenerator(config.value.pattern).value, config.value, g).value.0).Written?)
    ensures r.success ==> r.error == report.error
    ensures !r.success ==> r.error.Some?
    ensures r.repositoryPath != report.repositoryPath ==> Validate(config) == Pass && !config.value.dryRun
  {
    match Validate(config)
    case Fail(message) => Failed(report, IllegalArgument(message))
    case Pass =>
      var c := config.value;
      match CreateGenerator(c.pattern)
      case Err(e) => Failed(report, e)
      case Ok(gen) =>
        match GenerateCommits(gen, c, g)
        case Err(e) => Failed(report, e)
        case Ok((commits, _)) =>
          var counted := report.(totalCommitsGenerated := |commits|,
                                 startDate := c.startDate, endDate := c.endDate);
          if c.dryRun then counted.(success := true)
          else
            match persist(c, commits)
            case Written(path) => counted.(repositoryPath := Some(path), success := true)
            case CloseFailed(path, e) => Failed(counted.(repositoryPath := Some(path)), e)
            case PersistFailed(e) => Failed(counted, e)
  }

  /** The repository path is recorded as soon as the commits are written,
      before `close` runs in the `finally` block: a `close` that throws
      leaves the path in the report beside the failure, while a failure
      before the writing completes leaves the path as it was. */
  lemma PathRecordedOnceWritten(c: HistoryConfig, report: Report, g: Rng, persist: Persistence)
    requires Validate(Some(c)) == Pass && c.pattern.Some? && !c.dryRun
    requires GenerateCommits(CreateGenerator(c.pattern).value, c, g).Ok?
    ensures var r := Build(Some(c), report, g, persist);
      var outcome := persist(c, GenerateCommits(CreateGenerator(c.pattern).value, c, g).value.0);
      && (outcome.Written? ==> r.repositoryPath == Some(outcome.path) && r.success)
      && (outcome.CloseFailed? ==>
            r.repositoryPath == Some(outcome.path) && !r.success && r.error == Some(outcome.failure))
      && (outcome.PersistFailed? ==>
            r.repositoryPath == report.repositoryPath && !r.success && r.error == Some(outcome.failure))
  {
  }

  /** Once generation succeeds, the report holds its size and the
      configured dates, whether or not the repository is then written. */
  lemma TotalsFollowGeneration(c: HistoryConfig, report: Report, g: Rng, persist: Persistence)
    requires Validate(Some(c)) == Pass && c.pattern.Some?
    requires GenerateCommits(CreateGenerator(c.pattern).value, c, g).Ok?
    ensures var r := Build(Some(c), report, g, persist);
      && r.totalCommitsGenerated == |GenerateCommits(CreateGenerator(c.pattern).value, c, g).value.0|
      && r.startDate == c.startDate && r.endDate == c.endDate
  {
  }

  /** A failure before generation completes leaves every count and date of
      the report as it was: validation precedes generation. */
  lemma NothingCountedBeforeGeneration(config: Option<HistoryConfig>, report: Report, g: Rng, persist: Persistence)
    requires Validate(config).Fail?
      || CreateGenerator(config.value.pattern).Err?
      || GenerateCommits(CreateGenerator(config.value.pattern).value, config.value, g).Err?
    ensures var r := Build(config, report, g, persist);
      && !r.success
      && r.totalCommitsGenerated == report.totalCommitsGenerated
      && r.startDate == report.startDate && r.endDate == report.endDate
      && r.repositoryPath == report.repositoryPath
  {
  }

  /** In dry-run mode the repository manager is never consulted: any two
      managers give the same report, and the repository path is unchanged. */
  lemma DryRunIgnoresPersistence(c: HistoryConfig, report: Report, g: Rng, p1: Persistence, p2: Persistence)
    requires c.dryRun
    ensures Build(Some(c), report, g, p1) == Build(Some(c), report, g, p2)
    ensures Build(Some(c), report, g, p1).repositoryPath == report.repositoryPath
  {
  }

  /** A validated configuration with a pattern, both dates and a count span
      that fits in an `int` always succeeds in dry-run mode. */
  lemma ValidatedDryRunSucceeds(c: HistoryConfig, report: Report, g: Rng, persist: Persistence)
    requires Validate(Some(c)) == Pass && c.dryRun && c.pattern.Some?
    requires c.startDate.Some? && c.endDate.Some?
    requires c.commitsPerDayMax - c.commitsPerDayMin < INT_MAX
    ensures Build(Some(c), report, g, persist).success
  {
    var gen := CreateGenerator(c.pattern).value;
    ValidConfigNeverFails(gen, c, ConfigAuthor(c), c.startDate.value, c.endDate.value, g);
  }

  /** The defaults with a date range and dry run set build successfully. */
  lemma DefaultDryRunSucceeds(start: Date, end: Date, report: Report, g: Rng, persist: Persistence)
    requires start <= end
    ensures Build(Some(DEFAULT_CONFIG.(startDate := Some(start), endDate := Some(end), dryRun := true)),
                  report, g, persist).success
  {
    var c := DEFAULT_CONFIG.(startDate := Some(start), endDate := Some(end), dryRun := true);
    DefaultConfigIsValid();
    assert Validate(Some(c)) == Pass by {
      ValidateReportsFirstFailure(c);
      ValidateReportsFirstFailure(DEFAULT_CONFIG);
      ValidateSpec(c);
      ValidateSpec(DEFAULT_CONFIG);
      assert forall k | k in CHECK_ORDER :: Passes(k, c) by {
        forall k | k in CHECK_ORDER ensures Passes(k, c) {
          assert Passes(k, DEFAULT_CONFIG);
        }
      }
    }
    ValidatedDryRunSucceeds(c, report, g, persist);
  }
}

=== FILE: calendar.dfy ===
/** Calendar classification of `DateUtil`, on the proleptic Gregorian
    calendar of `java.time.LocalDate`.  A date is its epoch day, so that
    `plusDays(1)` is `+ 1` and `isAfter` is `>`; the civil conversion is
    proved to be a bijection onto the valid (year, month, day) triples. */
module Calendar {

  /** A `LocalDate` as its epoch day: the number of days since 1970-01-01. */
  type Date = int

  datatype CivilDate = CivilDate(year: int, month: int, day: int)

  datatype Season = Winter | Spring | Summer | Fall

  predicate IsLeapYear(year: int) {
    year % 4 == 0 && (year % 100 != 0 || year % 400 == 0)
  }

  function DaysInYear(year: int): int {
    if IsLeapYear(year) then 366 else 365
  }

  function DaysInMonth(year: int, month: int): int
    requires 1 <= month <= 12
  {
    if month == 2 then (if IsLeapYear(year) then 29 else 28)
    else if month == 4 || month == 6 || month == 9 || month == 11 then 30
    else 31
  }

  predicate IsValid(c: CivilDate) {
    1 <= c.month <= 12 && 1 <= c.day <= DaysInMonth(c.year, c.month)
  }

  /** Days of a common year before the first of each month; index 12 is the year's length. */
  const MonthStarts: seq<int> := [0, 31, 59, 90, 120, 151, 181, 212, 243, 273, 304, 334, 365]

  /** Days of `year` before the first day of `month`; month 13 stands for the next year. */
  function DaysBeforeMonth(year: int, month: int): int
    requires 1 <= month <= 13
  {
    MonthStarts[month - 1] + (if month > 2 && IsLeapYear(year) then 1 else 0)
  }

  lemma DaysBeforeMonthStep(year: int, month: int)
    requires 1 <= month <= 12
    ensures DaysBeforeMonth(year, month + 1) == DaysBeforeMonth(year, month) + DaysInMonth(year, month)
    ensures DaysBeforeMonth(year, 13) == DaysInYear(year)
  {
  }

  lemma DaysBeforeMonthMonotone(year: int, a: int, b: int)
    requires 1 <= a < b <= 13
    ensures DaysBeforeMonth(year, a) < DaysBeforeMonth(year, b)
  {
  }

  /** Leap days in the years strictly before `year` (counted from year 0). */
  function LeapDaysBefore(year: int): int {
    (year - 1) / 4 - (year - 1) / 100 + (year - 1) / 400
  }

  /** The epoch day of January 1 of `year`. */
  function YearStart(year: int): Date {
    365 * (year - 1970) + LeapDaysBefore(year) - LeapDaysBefore(1970)
  }

  lemma FloorStep(n: int, k: int)
    requires k == 4 || k == 100 || k == 400
    ensures n / k - (n - 1) / k == if n % k == 0 then 1 else 0
  {
    if k == 4 {
      assert n / 4 - (n - 1) / 4 == if n % 4 == 0 then 1 else 0;
    } else if k == 100 {
      assert n / 100 - (n - 1) / 100 == if n % 100 == 0 then 1 else 0;
    } else {
      assert n / 400 - (n - 1) / 400 == if n % 400 == 0 then 1 else 0;
    }
  }

  lemma YearStartStep(year: int)
    ensures YearStart(year + 1) == YearStart(year) + DaysInYear(year)
  {
    FloorStep(year, 4);
    FloorStep(year, 100);
    FloorStep(year, 400);
  }

  lemma {:induction false} YearStartMonotone(a: int, b: int)
    requires a < b
    ensures YearStart(a) + 365 <= YearStart(b)
    decreases b - a
  {
    YearStartStep(a);
    if a + 1 < b {
      YearStartMonotone(a + 1, b);
    }
  }

  /** Searches upward from `year` for the year holding `date`. */
  function YearUp(date: Date, year: int): (r: int)
    requires YearStart(year) <= date
    ensures year <= r && YearStart(r) <= date < YearStart(r + 1)
    decreases date - YearStart(year)
  {
    YearStartStep(year);
    if date < YearStart(year + 1) then year else YearUp(date, year + 1)
  }

  /** Searches downward from `year` for the year holding `date`. */
  function YearDown(date: Date, year: int): (r: int)
    requires date < YearStart(year + 1)
    ensures r <= year && YearStart(r) <= date < YearStart(r + 1)
    decreases YearStart(year + 1) - date
  {
    YearStartStep(year);
    if YearStart(year) <= date then year else YearDown(date, year - 1)
  }

  /** The year of a date: the unique year whose span contains it. */
  function YearOf(date: Date): (r: int)
    ensures YearStart(r) <= date < YearStart(r + 1)
  {
    if date >= 0 then YearUp(date, 1970) else YearDown(date, 1969)
  }

  lemma YearOfUnique(date: Date, year: int)
    requires YearStart(year) <= date < YearStart(year + 1)
    ensures YearOf(date) == year
  {
    var y := YearOf(date);
    if y < year {
      YearStartMonotone(y, year);
      if y + 1 < year { YearStartMonotone(y + 1, year); }
    } else if year < y {
      YearStartMonotone(year, y);
      if year + 1 < y { YearStartMonotone(year + 1, y); }
    }
  }

  /** Searches downward from `month` for the month holding day `offset` of `year`. */
  function MonthFrom(year: int, offset: int, month: int): (r: int)
    requires 1 <= month <= 12
    requires 0 <= offset < DaysBeforeMonth(year, month + 1)
    ensures 1 <= r <= month
    ensures DaysBeforeMonth(year, r) <= offset < DaysBeforeMonth(year, r + 1)
    decreases month
  {
    if DaysBeforeMonth(year, month) <= offset || month == 1 then month
    else MonthFrom(year, offset, month - 1)
  }

  lemma MonthUnique(year: int, offset: int, a: int, b: int)
    requires 1 <= a <= 12 && 1 <= b <= 12
    requires DaysBeforeMonth(year, a) <= offset < DaysBeforeMonth(year, a + 1)
    requires DaysBeforeMonth(year, b) <= offset < DaysBeforeMonth(year, b + 1)
    ensures a == b
  {
    if a < b {
      if a + 1 < b { DaysBeforeMonthMonotone(year, a + 1, b); }
    } else if b < a {
      if b + 1 < a { DaysBeforeMonthMonotone(year, b + 1, a); }
    }
  }

  /** `LocalDate.toEpochDay` of a valid civil date. */
  function ToEpochDay(c: CivilDate): (date: Date)
    requires IsValid(c)
    ensures YearStart(c.year) <= date < YearStart(c.year + 1)
    ensures date - YearStart(c.year) == DaysBeforeMonth(c.year, c.month) + c.day - 1
  {
    DaysBeforeMonthStep(c.year, c.month);
    DaysBeforeMonthStep(c.year, 12);
    YearStartStep(c.year);
    YearStart(c.year) + DaysBeforeMonth(c.year, c.month) + c.day - 1
  }

  /** `LocalDate.ofEpochDay`: the civil date of an epoch day. */
  function ToCivil(date: Date): (c: CivilDate)
    ensures IsValid(c)
    ensures ToEpochDay(c) == date
  {
    var year := YearOf(date);
    var offset := date - YearStart(year);
    YearStartStep(year);
    DaysBeforeMonthStep(year, 12);
    var month := MonthFrom(year, offset, 12);
    DaysBeforeMonthStep(year, month);
    CivilDate(year, month, offset - DaysBeforeMonth(year, month) + 1)
  }

  /** The civil conversion is a bijection: every valid civil date is the
      image of exactly its own epoch day. */
  lemma CivilRoundTrip(c: CivilDate)
    requires IsValid(c)
    ensures ToCivil(ToEpochDay(c)) == c
  {
    var date := ToEpochDay(c);
    YearOfUnique(date, c.year);
    var back := ToCivil(date);
    assert back.year == c.year;
    var offset := date - YearStart(c.year);
    DaysBeforeMonthStep(c.year, c.month);
    DaysBeforeMonthStep(back.year, back.month);
    MonthUnique(c.year, offset, back.month, c.month);
  }

  /** The civil date after `c`. */
  function Successor(c: CivilDate): (n: CivilDate)
    requires IsValid(c)
    ensures IsValid(n)
    ensures ToEpochDay(n) == ToEpochDay(c) + 1
  {
    DaysBeforeMonthStep(c.year, c.month);
    if c.day < DaysInMonth(c.year, c.month) then
      CivilDate(c.year, c.month, c.day + 1)
    else if c.month < 12 then
      DaysBeforeMonthStep(c.year, c.month + 1);
      CivilDate(c.year, c.month + 1, 1)
    else
      YearStartStep(c.year);
      CivilDate(c.year + 1, 1, 1)
  }

  /** `plusDays(1)` on the epoch day is the calendar's successor date: the
      day of the month advances, rolling over into the next month and year. */
  lemma NextDay(date: Date)
    ensures var c := ToCivil(date);
      ToCivil(date + 1) ==
        if c.day < DaysInMonth(c.year, c.month) then CivilDate(c.year, c.month, c.day + 1)
        else if c.month < 12 then CivilDate(c.year, c.month + 1, 1)
        else CivilDate(c.year + 1, 1, 1)
  {
    NextDayIsSuccessor(date);
  }

  lemma NextDayIsSuccessor(date: Date)
    ensures ToCivil(date + 1) == Successor(ToCivil(date))
  {
    var c := ToCivil(date);
    var n := Successor(c);
    assert ToEpochDay(n) == date + 1;
    CivilRoundTrip(n);
  }

  /** `DateUtil.getMonth`: `getMonthValue()`. */
  function GetMonth(date: Date): (m: int)
    ensures 1 <= m <= 12
  {
    ToCivil(date).month
  }

  /** `getDayOfYear()`: 1 on January 1. */
  function DayOfYear(date: Date): (d: int)
    ensures 1 <= d <= DaysInYear(YearOf(date))
    ensures date == YearStart(YearOf(date)) + d - 1
  {
    YearStartStep(YearOf(date));
    date - YearStart(YearOf(date)) + 1
  }

  /** `getDayOfWeek().getValue()`: Java computes `floorMod(epochDay + 3, 7) + 1`,
      which is the day of week numbering of ISO 8601 (Monday = 1, Sunday = 7);
      Dafny's `%` with a positive divisor is that floor modulus. */
  function DayOfWeek(date: Date): (w: int)
    ensures 1 <= w <= 7
  {
    (date + 3) % 7 + 1
  }

  lemma DayOfWeekSuccessor(date: Date)
    ensures DayOfWeek(date + 1) == if DayOfWeek(date) == 7 then 1 else DayOfWeek(date) + 1
  {
  }

  /** `DateUtil.isWeekend`. */
  predicate IsWeekend(date: Date) {
    DayOfWeek(date) == 6 || DayOfWeek(date) == 7
  }

  /** `DateUtil.isWeekday`. */
  predicate IsWeekday(date: Date) {
    !IsWeekend(date)
  }

  /** Weekends are Saturday and Sunday, they recur every seven days, and
      every date is exactly one of weekend or weekday. */
  lemma WeekendPeriodic(date: Date, k: int)
    ensures IsWeekend(date) <==> DayOfWeek(date) >= 6
    ensures IsWeekend(date + 7 * k) == IsWeekend(date)
    ensures IsWeekday(date) != IsWeekend(date)
  {
    assert (date + 7 * k + 3) % 7 == (date + 3) % 7;
  }

  /** The season branch of `DateUtil.getSeason`, by month value. */
  function SeasonOfMonth(month: int): (s: Season)
    requires 1 <= month <= 12
    ensures s == Winter <==> month in {12, 1, 2}
    ensures s == Spring <==> month in {3, 4, 5}
    ensures s == Summer <==> month in {6, 7, 8}
    ensures s == Fall <==> month in {9, 10, 11}
  {
    if month == 12 || month == 1 || month == 2 then Winter
    else if 3 <= month <= 5 then Spring
    else if 6 <= month <= 8 then Summer
    else Fall
  }

  /** `DateUtil.getSeason`. */
  function GetSeason(date: Date): Season {
    SeasonOfMonth(GetMonth(date))
  }

  /** The months a season covers. */
  function MonthsOf(s: Season): set<int> {
    match s
    case Winter => {12, 1, 2}
    case Spring => {3, 4, 5}
    case Summer => {6, 7, 8}
    case Fall => {9, 10, 11}
  }

  /** The four seasons partition the twelve months into blocks of three. */
  lemma SeasonsPartitionMonths(s: Season, month: int)
    requires 1 <= month <= 12
    ensures |MonthsOf(s)| == 3
    ensures forall m | m in MonthsOf(s) :: 1 <= m <= 12
    ensures SeasonOfMonth(month) == s <==> month in MonthsOf(s)
  {
  }

  /** `DateUtil.daysBetween`: `ChronoUnit.DAYS.between(start, end) + 1`. */
  function DaysBetween(start: Date, end: Date): (n: int)
    ensures n == |DatesFrom(start, end)| || (start > end + 1 && n <= 0)
  {
    end - start + 1
  }

  /** The dates the generators' loop visits: from `start`, one day at a time,
      while the current date is not after `end`. */
  function DatesFrom(start: Date, end: Date): (ds: seq<Date>)
    ensures |ds| == if start > end then 0 else end - start + 1
    ensures forall i | 0 <= i < |ds| :: ds[i] == start + i
    decreases end - start + 1
  {
    if start > end then [] else [start] + DatesFrom(start + 1, end)
  }
}

=== FILE: commit_messages.dfy ===
/** `CommitMessageGenerator`: a message is a category draw followed by a
    phrase draw and, except for documentation, a module draw. */
module CommitMessages {
  import opened RandomStream

  const FEATURES: seq<string> := [
    "Add new feature",
    "Implement user authentication",
    "Add API endpoint",
    "Create database migration",
    "Add validation",
    "Implement caching",
    "Add logging",
    "Create utility function",
    "Add configuration option",
    "Implement search functionality"
  ]

  const FIXES: seq<string> := [
    "Fix bug in",
    "Fix null pointer exception",
    "Fix memory leak",
    "Fix race condition",
    "Fix timeout issue",
    "Fix edge case",
    "Fix validation error",
    "Fix authentication issue",
    "Fix performance issue",
    "Fix data parsing"
  ]

  const REFACTORS: seq<string> := [
    "Refactor",
    "Simplify",
    "Optimize",
    "Clean up",
    "Reorganize",
    "Restructure",
    "Improve code quality",
    "Extract method",
    "Remove duplication",
    "Update dependencies"
  ]

  const DOCS: seq<string> := [
    "Update documentation",
    "Add README",
    "Add comments",
    "Update API docs",
    "Add examples",
    "Update changelog",
    "Add usage guide",
    "Fix typo in docs",
    "Add contributing guidelines",
    "Add license"
  ]

  const MODULES: seq<string> := [
    "in user module",
    "in auth module",
    "in database module",
    "in API module",
    "in config module",
    "in utils module",
    "in service module",
    "in controller module",
    "in model module",
    "in helper module"
  ]

  /** The prefixes of `generateCommitMessageWithEmoji`; the recycling symbol
      is followed by the emoji variation selector. */
  const EMOJIS: seq<string> := [
    "\U{2728}", "\U{1F41B}", "\U{267B}\U{FE0F}", "\U{1F4DD}",
    "\U{1F527}", "\U{26A1}", "\U{1F4E6}", "\U{1F680}"
  ]

  /** The message of the `default` branch. */
  const FALLBACK := "Update code"

  /** The phrase table of categories 0 (feature), 1 (fix) and 2 (refactor). */
  function PhrasesOf(category: int): (t: seq<string>)
    requires 0 <= category <= 2
    ensures |t| == 10
  {
    if category == 0 then FEATURES else if category == 1 then FIXES else REFACTORS
  }

  /** Every message a plain draw can produce: a feature, fix or refactor
      phrase followed by a space and a module, or a bare documentation phrase. */
  ghost predicate IsMessage(s: string) {
    s in DOCS
    || exists category, i, j | 0 <= category <= 2 && 0 <= i < 10 && 0 <= j < 10 ::
         s == PhrasesOf(category)[i] + " " + MODULES[j]
  }

  /** `generateCommitMessage`.  The category draw is in 0..3, so the
      `"Update code"` branch is never taken; categories 0 to 2 read three
      draws (category, phrase, module) and documentation reads two. */
  function GenerateCommitMessage(g: Rng): (r: (string, Rng))
    ensures IsMessage(r.0) && r.0 != FALLBACK
    ensures Scale(g.Current(), 0, 3) == 3 ==>
      r.0 in DOCS && r.0 == DOCS[Scale(g.Advance().Current(), 0, 9)]
    ensures Scale(g.Current(), 0, 3) < 3 ==>
      r.0 == PhrasesOf(Scale(g.Current(), 0, 3))[Scale(g.Advance().Current(), 0, 9)]
             + " " + MODULES[Scale(g.Advance().Advance().Current(), 0, 9)]
    ensures r.1.source == g.source
    ensures r.1.position == g.position + (if Scale(g.Current(), 0, 3) == 3 then 2 else 3)
  {
    var (category, g1) := Uniform(g, 0, 3);
    if 0 <= category <= 2 then
      var table := PhrasesOf(category);
      var (i, g2) := Uniform(g1, 0, |table| - 1);
      var (j, g3) := Uniform(g2, 0, |MODULES| - 1);
      var message := table[i] + " " + MODULES[j];
      assert |message| > |FALLBACK| by { ModulesAreLong(j); }
      (message, g3)
    else if category == 3 then
      var (i, g2) := Uniform(g1, 0, |DOCS| - 1);
      (DOCS[i], g2)
    else
      (FALLBACK, g1)
  }

  lemma ModulesAreLong(j: int)
    requires 0 <= j < 10
    ensures |MODULES[j]| > 11
  {
  }

  /** `generateCommitMessageWithEmoji`: an emoji drawn first, a space, then
      a plain message from the following draws. */
  function GenerateCommitMessageWithEmoji(g: Rng): (r: (string, Rng))
    ensures exists e, m | e in EMOJIS && IsMessage(m) :: r.0 == e + " " + m
    ensures r.0 == EMOJIS[Scale(g.Current(), 0, 7)] + " " + GenerateCommitMessage(g.Advance()).0
    ensures r.1 == GenerateCommitMessage(g.Advance()).1
    ensures r.1.source == g.source
    ensures r.1.position == g.position + 1 + (if Scale(g.Advance().Current(), 0, 3) == 3 then 2 else 3)
  {
    var (i, g1) := Uniform(g, 0, |EMOJIS| - 1);
    var (message, g2) := GenerateCommitMessage(g1);
    (EMOJIS[i] + " " + message, g2)
  }

  /** Every message of the table is produced by some stream: the message set
      is exactly the reachable one. */
  lemma EveryMessageReachable(s: string)
    requires IsMessage(s)
    ensures exists g: Rng :: GenerateCommitMessage(g).0 == s
  {
    if s in DOCS {
      var i :| 0 <= i < |DOCS| && DOCS[i] == s;
      var g := Scripted([SlotVariate(3, 4), SlotVariate(i, 10)]);
      assert GenerateCommitMessage(g).0 == s;
    } else {
      var category, i, j :| 0 <= category <= 2 && 0 <= i < 10 && 0 <= j < 10
        && s == PhrasesOf(category)[i] + " " + MODULES[j];
      var g := Scripted([SlotVariate(category, 4), SlotVariate(i, 10), SlotVariate(j, 10)]);
      assert GenerateCommitMessage(g).0 == s;
    }
  }

  /** Every emoji followed by a space and a message of the table is
      produced by some stream. */
  lemma EveryEmojiMessageReachable(e: string, s: string)
    requires e in EMOJIS && IsMessage(s)
    ensures exists g: Rng :: GenerateCommitMessageWithEmoji(g).0 == e + " " + s
  {
    var k :| 0 <= k < |EMOJIS| && EMOJIS[k] == e;
    if s in DOCS {
      var i :| 0 <= i < |DOCS| && DOCS[i] == s;
      var g := Scripted([SlotVariate(k, 8), SlotVariate(3, 4), SlotVariate(i, 10)]);
      assert GenerateCommitMessage(g.Advance()).0 == s;
      assert GenerateCommitMessageWithEmoji(g).0 == e + " " + s;
    } else {
      var category, i, j :| 0 <= category <= 2 && 0 <= i < 10 && 0 <= j < 10
        && s == PhrasesOf(category)[i] + " " + MODULES[j];
      var g := Scripted([SlotVariate(k, 8), SlotVariate(category, 4), SlotVariate(i, 10), SlotVariate(j, 10)]);
      assert GenerateCommitMessage(g.Advance()).0 == s;
      assert GenerateCommitMessageWithEmoji(g).0 == e + " " + s;
    }
  }

  /** A message depends only on the variates it reads: streams that agree
      over that span give the same message and stop at the same position. */
  lemma MessageReadsItsDraws(g1: Rng, g2: Rng)
    requires Agree(g1, g2, GenerateCommitMessage(g1).1.position)
    ensures GenerateCommitMessage(g2).0 == GenerateCommitMessage(g1).0
    ensures GenerateCommitMessage(g2).1.position == GenerateCommitMessage(g1).1.position
  {
    var upto := GenerateCommitMessage(g1).1.position;
    AgreeStep(g1, g2, upto);
    AgreeStep(g1.Advance(), g2.Advance(), upto);
    if Scale(g1.Current(), 0, 3) < 3 {
      AgreeStep(g1.Advance().Advance(), g2.Advance().Advance(), upto);
    }
  }
}

=== FILE: date_text.dfy ===
/** Decimal rendering used by the log line: `LocalDate.toString()` (the
    extended calendar date format of section 4.1.2.2 of ISO 8601:2004,
    `YYYY-MM-DD`, with Java's sign rules for years outside 0..9999) and
    `%02d`.  The fixed-width forms come with parsers that invert them. */
module DateText {
  import opened JavaLang
  import opened Calendar

  predicate IsDigit(ch: char) {
    '0' <= ch <= '9'
  }

  function DigitChar(d: int): (ch: char)
    requires 0 <= d <= 9
    ensures IsDigit(ch)
  {
    ('0' as int + d) as char
  }

  function DigitValue(ch: char): (d: int)
    requires IsDigit(ch)
    ensures 0 <= d <= 9
    ensures DigitChar(d) == ch
  {
    ch as int - '0' as int
  }

  /** `%02d` of a value in 0..99. */
  function Pad2(n: int): (s: string)
    requires 0 <= n < 100
    ensures |s| == 2 && IsDigit(s[0]) && IsDigit(s[1])
  {
    [DigitChar(n / 10), DigitChar(n % 10)]
  }

  /** A value in 0..9999 as exactly four digits. */
  function Pad4(n: int): (s: string)
    requires 0 <= n < 10000
    ensures |s| == 4 && forall i | 0 <= i < 4 :: IsDigit(s[i])
  {
    Pad2(n / 100) + Pad2(n % 100)
  }

  /** The number a string of decimal digits denotes, most significant
      digit first. */
  function DecimalValue(s: string): nat
    requires forall i | 0 <= i < |s| :: IsDigit(s[i])
  {
    if s == [] then 0 else 10 * DecimalValue(s[..|s| - 1]) + DigitValue(s[|s| - 1])
  }

  /** The shortest decimal rendering of a natural number: digits that
      denote `n`, with no leading zero. */
  function Decimal(n: nat): (s: string)
    ensures |s| >= 1 && forall i | 0 <= i < |s| :: IsDigit(s[i])
    ensures DecimalValue(s) == n
    ensures |s| > 1 ==> s[0] != '0'
  {
    if n < 10 then [DigitChar(n)]
    else
      var prefix := Decimal(n / 10);
      var s := prefix + [DigitChar(n % 10)];
      assert s[..|s| - 1] == prefix;
      assert s[0] == prefix[0];
      s
  }

  function ParseDigits2(s: string): (n: int)
    requires |s| == 2 && IsDigit(s[0]) && IsDigit(s[1])
    ensures 0 <= n < 100
  {
    10 * DigitValue(s[0]) + DigitValue(s[1])
  }

  function ParseDigits4(s: string): (n: int)
    requires |s| == 4 && forall i | 0 <= i < 4 :: IsDigit(s[i])
    ensures 0 <= n < 10000
  {
    100 * ParseDigits2(s[..2]) + ParseDigits2(s[2..])
  }

  lemma Pad2RoundTrip(n: int)
    requires 0 <= n < 100
    ensures ParseDigits2(Pad2(n)) == n
  {
  }

  lemma Pad4RoundTrip(n: int)
    requires 0 <= n < 10000
    ensures ParseDigits4(Pad4(n)) == n
  {
    var s := Pad4(n);
    assert s[..2] == Pad2(n / 100);
    assert s[2..] == Pad2(n % 100);
  }

  /** The year field of `LocalDate.toString()`: years of absolute value
      below 1000 are zero-padded to four digits (after a `-` when negative),
      and years above 9999 carry a leading `+`. */
  function YearText(year: int): string {
    if 0 <= year <= 9999 then Pad4(year)
    else if -999 <= year < 0 then "-" + Pad4(-year)
    else if year > 9999 then "+" + Decimal(year)
    else "-" + Decimal(-year)
  }

  /** `LocalDate.toString()`. */
  function IsoDate(date: Date): string {
    var c := ToCivil(date);
    YearText(c.year) + "-" + Pad2(c.month) + "-" + Pad2(c.day)
  }

  /** Reads a `YYYY-MM-DD` calendar date back into an epoch day; `None`
      when the text is not ten characters of that shape or not a real date. */
  function ParseIsoDate(s: string): Option<Date> {
    if |s| == 10 && s[4] == '-' && s[7] == '-'
      && (forall i | 0 <= i < 10 && i != 4 && i != 7 :: IsDigit(s[i]))
    then
      var c := CivilDate(ParseDigits4(s[..4]), ParseDigits2(s[5..7]), ParseDigits2(s[8..]));
      if IsValid(c) then Some(ToEpochDay(c)) else None
    else None
  }

  /** Where the fields of `YYYY-MM-DD` sit once joined. */
  lemma IsoLayout(y: string, m: string, d: string)
    requires |y| == 4 && forall i | 0 <= i < 4 :: IsDigit(y[i])
    requires |m| == 2 && IsDigit(m[0]) && IsDigit(m[1])
    requires |d| == 2 && IsDigit(d[0]) && IsDigit(d[1])
    ensures var s := y + "-" + m + "-" + d;
      && |s| == 10 && s[4] == '-' && s[7] == '-'
      && s[..4] == y && s[5..7] == m && s[8..] == d
      && forall i | 0 <= i < 10 && i != 4 && i != 7 :: IsDigit(s[i])
  {
    var s := y + "-" + m + "-" + d;
    assert s[..4] == y;
    assert s[5..7] == m;
    assert s[8..] == d;
    forall i | 0 <= i < 10 && i != 4 && i != 7 ensures IsDigit(s[i]) {
      if i < 4 { assert s[i] == y[i]; }
      else if i < 7 { assert s[i] == m[i - 5]; }
      else { assert s[i] == d[i - 8]; }
    }
  }

  /** For four-digit years the text is ten characters, `YYYY-MM-DD`, and
      reading it back gives the same date. */
  lemma IsoDateRoundTrip(date: Date)
    requires 0 <= YearOf(date) <= 9999
    ensures |IsoDate(date)| == 10
    ensures ParseIsoDate(IsoDate(date)) == Some(date)
  {
    var c := ToCivil(date);
    var y, m, d := Pad4(c.year), Pad2(c.month), Pad2(c.day);
    assert IsoDate(date) == y + "-" + m + "-" + d;
    IsoLayout(y, m, d);
    Pad4RoundTrip(c.year);
    Pad2RoundTrip(c.month);
    Pad2RoundTrip(c.day);
    assert CivilDate(ParseDigits4(y), ParseDigits2(m), ParseDigits2(d)) == c;
  }
}

=== FILE: file_content.dfy ===
/** `FileContentGenerator`: a canned snippet, and the log line
    `Contribution on <date> at HH:MM:SS<line separator>` whose time of day
    comes from three draws of its own. */
module FileContent {
  import opened JavaLang
  import opened Calendar
  import opened DateText
  import opened RandomStream

  const CONTENTS: seq<string> := [
    "// Code contribution\nfunction doSomething() { return true; }",
    "// Bug fix\nvar fixed = true;",
    "// Feature implementation\nclass Feature { }",
    "# Documentation update\n\nThis is an important update.",
    "TODO: Implement feature X\n// In progress",
    "// Performance improvement\noptimized_code = 1;",
    "// Refactoring\nvar x = 10;\nvar y = 20;",
    "// Unit tests\nfunction test() { }\n",
    "Configuration: { enabled: true }",
    "// Fix for issue #42\nbugFixed = true;"
  ]

  /** `generateContent`: one snippet, chosen by one draw. */
  function GenerateContent(g: Rng): (r: (string, Rng))
    ensures r.0 in CONTENTS
    ensures r.0 == CONTENTS[Scale(g.Current(), 0, 9)]
    ensures r.1 == g.Advance()
  {
    var (i, g') := Uniform(g, 0, |CONTENTS| - 1);
    (CONTENTS[i], g')
  }

  /** Every snippet is produced by some stream. */
  lemma EveryContentReachable(s: string)
    requires s in CONTENTS
    ensures exists g: Rng :: GenerateContent(g).0 == s
  {
    var i :| 0 <= i < |CONTENTS| && CONTENTS[i] == s;
    var g := Scripted([SlotVariate(i, 10)]);
    assert GenerateContent(g).0 == s;
  }

  /** The `%n` of the format string, fixed to the Unix separator. */
  const LINE_SEPARATOR := "\n"

  const LOG_PREFIX := "Contribution on "
  const LOG_AT := " at "

  /** The date and time of day a log line states. */
  datatype LogStamp = LogStamp(date: Date, hour: int, minute: int, second: int)

  predicate ValidTime(hour: int, minute: int, second: int) {
    0 <= hour <= 23 && 0 <= minute <= 59 && 0 <= second <= 59
  }

  /** The text of the format `"Contribution on %s at %02d:%02d:%02d%n"`. */
  function FormatLogLine(s: LogStamp): string
    requires ValidTime(s.hour, s.minute, s.second)
  {
    LOG_PREFIX + IsoDate(s.date) + LOG_AT
      + Pad2(s.hour) + ":" + Pad2(s.minute) + ":" + Pad2(s.second) + LINE_SEPARATOR
  }

  /** Reads a log line back; `None` for anything not of the fixed shape of a
      line with a four-digit year. */
  function ParseLogLine(line: string): Option<LogStamp> {
    if |line| == 39 && line[..16] == LOG_PREFIX && line[26..30] == LOG_AT
      && line[32] == ':' && line[35] == ':' && line[38..] == LINE_SEPARATOR
      && IsDigit(line[30]) && IsDigit(line[31]) && IsDigit(line[33])
      && IsDigit(line[34]) && IsDigit(line[36]) && IsDigit(line[37])
    then
      match ParseIsoDate(line[16..26])
      case None => None
      case Some(date) =>
        Some(LogStamp(date, ParseDigits2(line[30..32]), ParseDigits2(line[33..35]),
                      ParseDigits2(line[36..38])))
    else None
  }

  /** Where each field of a log line sits, for a ten-character date. */
  lemma LogLineLayout(date: string, h: string, m: string, sec: string)
    requires |date| == 10 && |h| == 2 && |m| == 2 && |sec| == 2
    ensures var line := LOG_PREFIX + date + LOG_AT + h + ":" + m + ":" + sec + LINE_SEPARATOR;
      && |line| == 39
      && line[..16] == LOG_PREFIX && line[16..26] == date && line[26..30] == LOG_AT
      && line[30..32] == h && line[32] == ':' && line[33..35] == m && line[35] == ':'
      && line[36..38] == sec && line[38..] == LINE_SEPARATOR
      && line[30] == h[0] && line[31] == h[1] && line[33] == m[0] && line[34] == m[1]
      && line[36] == sec[0] && line[37] == sec[1]
  {
  }

  /** A log line of a four-digit year is 39 characters and states exactly
      the date and time it was formatted from. */
  lemma LogLineRoundTrip(s: LogStamp)
    requires ValidTime(s.hour, s.minute, s.second)
    requires 0 <= YearOf(s.date) <= 9999
    ensures |FormatLogLine(s)| == 39
    ensures ParseLogLine(FormatLogLine(s)) == Some(s)
  {
    IsoDateRoundTrip(s.date);
    var date, h, m, sec := IsoDate(s.date), Pad2(s.hour), Pad2(s.minute), Pad2(s.second);
    LogLineLayout(date, h, m, sec);
    Pad2RoundTrip(s.hour);
    Pad2RoundTrip(s.minute);
    Pad2RoundTrip(s.second);
  }

  /** `generateLogLine(date)`: the hour, minute and second are drawn in that
      order, each from its own variate, and the line states them with the
      date. */
  function GenerateLogLine(date: Date, g: Rng): (r: (string, Rng))
    ensures r.1.source == g.source && r.1.position == g.position + 3
    ensures 0 <= YearOf(date) <= 9999 ==>
      ParseLogLine(r.0) == Some(LogStamp(date,
        Scale(g.Current(), 0, 23),
        Scale(g.Advance().Current(), 0, 59),
        Scale(g.Advance().Advance().Current(), 0, 59)))
  {
    var (hour, g1) := Uniform(g, 0, 23);
    var (minute, g2) := Uniform(g1, 0, 59);
    var (second, g3) := Uniform(g2, 0, 59);
    var stamp := LogStamp(date, hour, minute, second);
    assert 0 <= YearOf(date) <= 9999 ==> ParseLogLine(FormatLogLine(stamp)) == Some(stamp) by {
      if 0 <= YearOf(date) <= 9999 { LogLineRoundTrip(stamp); }
    }
    (FormatLogLine(stamp), g3)
  }

  /** A log line depends only on its three time draws. */
  lemma LogLineReadsItsDraws(date: Date, g1: Rng, g2: Rng)
    requires Agree(g1, g2, GenerateLogLine(date, g1).1.position)
    ensures GenerateLogLine(date, g2).0 == GenerateLogLine(date, g1).0
    ensures GenerateLogLine(date, g2).1.position == GenerateLogLine(date, g1).1.position
  {
    var upto := GenerateLogLine(date, g1).1.position;
    AgreeStep(g1, g2, upto);
    AgreeStep(g1.Advance(), g2.Advance(), upto);
    AgreeStep(g1.Advance().Advance(), g2.Advance().Advance(), upto);
  }
}

=== FILE: generators.dfy ===
/** The two `ContributionGenerator` implementations.  Their `generateCommits`
    loops are identical: walk the dates from start to end inclusive, ask
    `getCommitsForDate` for a count, and emit that many commits for the day.
    They differ only in `getCommitsForDate`, so both are modelled once with
    the generator as a parameter. */
module Generators {
  import opened JavaLang
  import opened Calendar
  import opened RandomStream
  import opened TimePattern
  import opened CommitMessages
  import opened FileContent
  import opened Model
  import opened Config
  import opened Validator

  /** `RandomContributionGenerator` and `IntelligentContributionGenerator`. */
  datatype Generator = RandomGenerator | IntelligentGenerator

  /** The burst chance the intelligent generator passes, whatever the
      configuration says. */
  const BURST_CHANCE: real := 0.05

  /** The file every generated commit writes. */
  const LOG_FILE := "contributions.log"

  /** The configured factor for the kind of day: the weekend reduction on
      Saturday and Sunday, the weekday boost otherwise. */
  function DayFactor(date: Date, c: HistoryConfig): real {
    if IsWeekend(date) then c.weekendProbabilityReduction else c.weekdayProbabilityBoost
  }

  /** `min(p * factor * intensity, 1.0)`: a probability when every factor
      is non-negative, and zero when the configured probability or the
      day factor is. */
  function CappedProduct(p: real, factor: real, intensity: real): (r: real)
    ensures r <= 1.0
    ensures 0.0 <= p && 0.0 <= factor && 0.0 <= intensity ==> 0.0 <= r
    ensures p == 0.0 || factor == 0.0 ==> r == 0.0
    ensures p * factor * intensity < 1.0 ==> r == p * factor * intensity
    ensures p * factor * intensity >= 1.0 ==> r == 1.0
  {
    var base := p * factor * intensity;
    assert 0.0 <= p && 0.0 <= factor && 0.0 <= intensity ==> 0.0 <= base by {
      if 0.0 <= p && 0.0 <= factor && 0.0 <= intensity {
        assert 0.0 <= p * factor;
      }
    }
    if base < 1.0 then base else 1.0
  }

  /** The intelligent generator's probability: the configured one times the
      day factor times the intensity, capped at 1.0. */
  function AdjustedProbability(date: Date, c: HistoryConfig): (p: real)
    ensures p <= 1.0
    ensures c.contributionProbability == 0.0 || DayFactor(date, c) == 0.0 ==> p == 0.0
    ensures c.contributionProbability * DayFactor(date, c) * IntensityMultiplier(date) < 1.0 ==>
      p == c.contributionProbability * DayFactor(date, c) * IntensityMultiplier(date)
    ensures c.contributionProbability * DayFactor(date, c) * IntensityMultiplier(date) >= 1.0 ==> p == 1.0
  {
    CapCases(c.contributionProbability, DayFactor(date, c), IntensityMultiplier(date));
    CappedProduct(c.contributionProbability, DayFactor(date, c), IntensityMultiplier(date))
  }

  /** Both cases of the cap, as facts at the caller's own arguments. */
  lemma CapCases(p: real, factor: real, intensity: real)
    ensures p * factor * intensity < 1.0 ==> CappedProduct(p, factor, intensity) == p * factor * intensity
    ensures p * factor * intensity >= 1.0 ==> CappedProduct(p, factor, intensity) == 1.0
  {}

  /** The capped product never falls when the configured probability
      rises, the other factors being non-negative. */
  lemma CappedProductMonotone(p1: real, p2: real, factor: real, intensity: real)
    requires p1 <= p2 && 0.0 <= factor && 0.0 <= intensity
    ensures CappedProduct(p1, factor, intensity) <= CappedProduct(p2, factor, intensity)
  {
    assert p1 * factor <= p2 * factor;
    assert (p1 * factor) * intensity <= (p2 * factor) * intensity;
  }

  /** Raising the configured probability never lowers any day's adjusted
      probability when the day's factor is non-negative. */
  lemma AdjustedProbabilityMonotone(date: Date, c: HistoryConfig, p: real)
    requires c.contributionProbability <= p && 0.0 <= DayFactor(date, c)
    ensures AdjustedProbability(date, c) <= AdjustedProbability(date, c.(contributionProbability := p))
  {
    assert DayFactor(date, c.(contributionProbability := p)) == DayFactor(date, c);
    CappedProductMonotone(c.contributionProbability, p, DayFactor(date, c), IntensityMultiplier(date));
  }

  /** A configuration that passes validation yields a probability that
      `nextBoolean` accepts, on every date. */
  lemma AdjustedProbabilityInRange(date: Date, c: HistoryConfig)
    requires Validate(Some(c)) == Pass
    ensures 0.0 <= AdjustedProbability(date, c) <= 1.0
  {
    ValidConfigRanges(c);
    assert 0.0 <= DayFactor(date, c);
  }

  /** The probability a generator hands to `nextBoolean` for a date. */
  function DrawProbability(gen: Generator, date: Date, c: HistoryConfig): real {
    match gen
    case RandomGenerator => c.contributionProbability
    case IntelligentGenerator => AdjustedProbability(date, c)
  }

  /** `(int) (baseCommits * burstMultiplier)`: the product is exact, and the
      cast saturates at the `int` range. */
  function Amplify(b: Int32, burst: real): (n: Int32)
    requires burst == 1.0 || burst == 2.0
    ensures burst == 1.0 ==> n == b
    ensures burst == 2.0 && INT_MIN <= 2 * b <= INT_MAX ==> n == 2 * b
    ensures burst == 2.0 && 2 * b > INT_MAX ==> n == INT_MAX
    ensures burst == 2.0 && 2 * b < INT_MIN ==> n == INT_MIN
  {
    DoubleToInt(b as real * burst)
  }

  /** The counts a generator may return for a date on which its probability
      draw succeeded. */
  ghost predicate Admissible(gen: Generator, date: Date, c: HistoryConfig, n: int) {
    match gen
    case RandomGenerator => c.commitsPerDayMin <= n <= c.commitsPerDayMax
    case IntelligentGenerator =>
      exists b: Int32 | c.commitsPerDayMin <= b <= c.commitsPerDayMax ::
        n == Amplify(b, BurstMultiplier(date, BURST_CHANCE))
  }

  /** A day's count is zero or one a successful draw admits. */
  ghost predicate DailyCountOk(gen: Generator, date: Date, c: HistoryConfig, n: int) {
    n == 0 || Admissible(gen, date, c, n)
  }

  /** The inputs on which neither draw of `getCommitsForDate` can throw. */
  predicate SamplerSafe(gen: Generator, date: Date, c: HistoryConfig) {
    && 0.0 <= DrawProbability(gen, date, c) <= 1.0
    && c.commitsPerDayMin <= c.commitsPerDayMax
    && c.commitsPerDayMax - c.commitsPerDayMin < INT_MAX
  }

  /** The exceptions `getCommitsForDate` can throw. */
  const SAMPLER_FAILURES: set<Failure> := {
    IllegalArgument(BAD_PROBABILITY), IllegalArgument(MIN_GREATER_THAN_MAX),
    IllegalArgument(BOUND_NOT_POSITIVE)
  }

  /** The count a generator reports for a drawn base count `b`: `b` itself
      for the uniform generator, `b` scaled by the day's burst for the other. */
  function BurstCount(gen: Generator, date: Date, b: Int32): int {
    match gen
    case RandomGenerator => b
    case IntelligentGenerator => Amplify(b, BurstMultiplier(date, BURST_CHANCE))
  }

  /** What `getCommitsForDate` answers, read off the variates: the day
      contributes exactly when the first variate is below its probability,
      and then the count is the second variate scaled to `min..max`, passed
      through `BurstCount`, after two draws; otherwise 0 after one. */
  function SampledCount(gen: Generator, date: Date, c: HistoryConfig, g: Rng): (int, Rng)
    requires SamplerSafe(gen, date, c)
  {
    if g.Current() < DrawProbability(gen, date, c) then
      (BurstCount(gen, date, Scale(g.Advance().Current(), c.commitsPerDayMin, c.commitsPerDayMax)),
       g.Advance().Advance())
    else (0, g.Advance())
  }

  /** `getCommitsForDate`: a probability draw, and, when it succeeds, a
      count draw; the intelligent generator doubles the count on burst days. */
  function CommitsForDate(gen: Generator, date: Date, c: HistoryConfig, g: Rng): (r: Result<(int, Rng)>)
    ensures r.Ok? ==> r.value.1.source == g.source
    ensures r.Ok? ==> r.value.1.position == g.position + 1 || r.value.1.position == g.position + 2
    ensures r.Ok? && r.value.0 != 0 ==> r.value.1.position == g.position + 2
    ensures r.Ok? ==> DailyCountOk(gen, date, c, r.value.0)
    ensures DrawProbability(gen, date, c) == 0.0 ==> r == Ok((0, g.Advance()))
    ensures SamplerSafe(gen, date, c) ==> r.Ok?
    ensures r.Err? ==> r.failure in SAMPLER_FAILURES
    ensures !(0.0 <= DrawProbability(gen, date, c) <= 1.0) ==> r == Err(IllegalArgument(BAD_PROBABILITY))
    ensures SamplerSafe(gen, date, c) ==> r == Ok(SampledCount(gen, date, c, g))
  {
    match NextBoolean(g, DrawProbability(gen, date, c))
    case Err(e) => Err(e)
    case Ok((contributes, g1)) =>
      if !contributes then Ok((0, g1))
      else
        match NextInt(g1, c.commitsPerDayMin, c.commitsPerDayMax)
        case Err(e) => Err(e)
        case Ok((b, g2)) =>
          match gen
          case RandomGenerator => Ok((b, g2))
          case IntelligentGenerator =>
            var burst := BurstMultiplier(date, BURST_CHANCE);
            var n := Amplify(b, burst);
            assert Admissible(gen, date, c, n);
            Ok((n, g2))
  }

  /** Off burst days the intelligent count is a plain draw from `min..max`;
      on burst days it is twice one, never clamped back to `max`. */
  lemma IntelligentCounts(date: Date, c: HistoryConfig, n: int)
    requires Admissible(IntelligentGenerator, date, c, n)
    requires 0 <= c.commitsPerDayMin && 2 * c.commitsPerDayMax <= INT_MAX
    ensures !IsBurstDay(date, BURST_CHANCE) ==> c.commitsPerDayMin <= n <= c.commitsPerDayMax
    ensures IsBurstDay(date, BURST_CHANCE) ==>
      n % 2 == 0 && 2 * c.commitsPerDayMin <= n <= 2 * c.commitsPerDayMax
  {
    var b: Int32 :| c.commitsPerDayMin <= b <= c.commitsPerDayMax
      && n == Amplify(b, BurstMultiplier(date, BURST_CHANCE));
    AmplifiedRange(b, BurstMultiplier(date, BURST_CHANCE), c.commitsPerDayMin, c.commitsPerDayMax);
  }

  /** A base count in `min..max` stays there off burst days and doubles,
      exactly and evenly, on them, when twice `max` fits in an `int`. */
  lemma AmplifiedRange(b: Int32, burst: real, min: int, max: int)
    requires burst == 1.0 || burst == 2.0
    requires 0 <= min <= b <= max && 2 * max <= INT_MAX
    ensures burst == 1.0 ==> min <= Amplify(b, burst) <= max
    ensures burst == 2.0 ==> Amplify(b, burst) == 2 * b && Amplify(b, burst) % 2 == 0
    ensures burst == 2.0 ==> 2 * min <= Amplify(b, burst) <= 2 * max
  {
  }

  /** What every generated commit looks like: dated within `start..end`, a
      whole-minute time with second 0, the configured author, the log file,
      and a message of the commit message tables. */
  ghost predicate Fits(x: Commit, author: Author, start: Date, end: Date) {
    && start <= x.timestamp.date <= end
    && 0 <= x.timestamp.hour <= 23 && 0 <= x.timestamp.minute <= 59
    && x.timestamp.second == 0
    && x.author == author && x.filePath == LOG_FILE && IsMessage(x.message)
  }

  /** One pass of the inner loop: the hour and minute of the timestamp, the
      message, then the log line with its own three time draws. */
  function MakeCommit(date: Date, author: Author, g: Rng): (r: (Commit, Rng))
    ensures Fits(r.0, author, date, date)
    ensures r.1.source == g.source
    ensures g.position + 7 <= r.1.position <= g.position + 8
    ensures 0 <= YearOf(date) <= 9999 ==>
      ParseLogLine(r.0.fileContent).Some? && ParseLogLine(r.0.fileContent).value.date == date
    ensures r.0.timestamp.hour == Scale(g.Current(), 0, 23)
    ensures r.0.timestamp.minute == Scale(g.Advance().Current(), 0, 59)
    ensures r.0.message == GenerateCommitMessage(g.Advance().Advance()).0
    ensures var log := GenerateLogLine(date, GenerateCommitMessage(g.Advance().Advance()).1);
      r.0.fileContent == log.0 && r.1 == log.1
  {
    var (hour, g1) := Uniform(g, 0, 23);
    var (minute, g2) := Uniform(g1, 0, 59);
    var (message, g3) := GenerateCommitMessage(g2);
    var (line, g4) := GenerateLogLine(date, g3);
    (Commit(Timestamp(date, hour, minute, 0), message, author, LOG_FILE, line), g4)
  }

  /** `n` applications of `step`, threading the stream: a counted loop
      with the work of one pass left abstract. */
  function Repeat<T>(step: Rng -> (T, Rng), n: int, g: Rng): (seq<T>, Rng)
    decreases n
  {
    if n <= 0 then ([], g)
    else
      var first := step(g);
      var rest := Repeat(step, n - 1, first.1);
      ([first.0] + rest.0, rest.1)
  }

  /** A step that keeps the source and never moves back. */
  ghost predicate Advances<T>(step: Rng -> (T, Rng)) {
    forall g: Rng :: step(g).1.source == g.source && g.position <= step(g).1.position
  }

  /** A step that advances and depends only on the variates it reads. */
  ghost predicate ReadsOwnDraws<T>(step: Rng -> (T, Rng)) {
    && Advances(step)
    && (forall g1: Rng, g2: Rng | Agree(g1, g2, step(g1).1.position) ::
          step(g2).0 == step(g1).0 && step(g2).1.position == step(g1).1.position)
  }

  lemma {:induction false} RepeatLength<T>(step: Rng -> (T, Rng), n: int, g: Rng)
    ensures |Repeat(step, n, g).0| == if n <= 0 then 0 else n
    decreases n
  {
    if n > 0 {
      RepeatLength(step, n - 1, step(g).1);
    }
  }

  lemma {:induction false} RepeatAll<T>(step: Rng -> (T, Rng), p: T -> bool, n: int, g: Rng)
    requires forall h: Rng :: p(step(h).0)
    ensures forall i | 0 <= i < |Repeat(step, n, g).0| :: p(Repeat(step, n, g).0[i])
    decreases n
  {
    if n > 0 {
      RepeatAll(step, p, n - 1, step(g).1);
    }
  }

  lemma {:induction false} RepeatMoves<T>(step: Rng -> (T, Rng), n: int, g: Rng)
    requires Advances(step)
    ensures Repeat(step, n, g).1.source == g.source
    ensures g.position <= Repeat(step, n, g).1.position
    decreases n
  {
    if n > 0 {
      RepeatMoves(step, n - 1, step(g).1);
    }
  }

  /** Repeating a step that reads only its own draws reads only the draws
      of the whole run. */
  lemma {:induction false} RepeatReadsItsDraws<T>(step: Rng -> (T, Rng), n: int, g1: Rng, g2: Rng)
    requires ReadsOwnDraws(step)
    requires Agree(g1, g2, Repeat(step, n, g1).1.position)
    ensures Repeat(step, n, g2).0 == Repeat(step, n, g1).0
    ensures Repeat(step, n, g2).1.position == Repeat(step, n, g1).1.position
    decreases n
  {
    if n > 0 {
      var upto := Repeat(step, n, g1).1.position;
      var f1, f2 := step(g1), step(g2);
      RepeatMoves(step, n - 1, f1.1);
      AgreeShorter(g1, g2, upto, f1.1.position);
      AgreeLater(g1, g2, upto, f1.1, f2.1);
      RepeatReadsItsDraws(step, n - 1, f1.1, f2.1);
    }
  }

  /** One pass of the inner loop as a step function. */
  function CommitStep(date: Date, author: Author): Rng -> (Commit, Rng) {
    (g: Rng) => MakeCommit(date, author, g)
  }

  lemma CommitStepFits(date: Date, author: Author)
    ensures Advances(CommitStep(date, author))
    ensures forall h: Rng :: Fits(CommitStep(date, author)(h).0, author, date, date)
  {
  }

  /** The inner `for` loop: `n` commits for one date, none when `n <= 0`. */
  function DayCommits(date: Date, n: int, author: Author, g: Rng): (r: (seq<Commit>, Rng))
    ensures |r.0| == if n <= 0 then 0 else n
    ensures forall i | 0 <= i < |r.0| :: Fits(r.0[i], author, date, date)
    ensures r.1.source == g.source && r.1.position >= g.position
  {
    var step := CommitStep(date, author);
    CommitStepFits(date, author);
    RepeatLength(step, n, g);
    RepeatMoves(step, n, g);
    RepeatAll(step, (x: Commit) => Fits(x, author, date, date), n, g);
    Repeat(step, n, g)
  }

  /** Commits in non-decreasing date order. */
  ghost predicate SortedByDate(s: seq<Commit>) {
    forall i, j | 0 <= i < j < |s| :: s[i].timestamp.date <= s[j].timestamp.date
  }

  /** The number of commits dated `date`. */
  function CountOn(s: seq<Commit>, date: Date): (n: nat)
    ensures n <= |s|
  {
    if s == [] then 0
    else (if s[0].timestamp.date == date then 1 else 0) + CountOn(s[1..], date)
  }

  lemma {:induction false} CountOnConcat(a: seq<Commit>, b: seq<Commit>, date: Date)
    ensures CountOn(a + b, date) == CountOn(a, date) + CountOn(b, date)
  {
    if a == [] {
      assert a + b == b;
    } else {
      assert (a + b)[0] == a[0];
      assert (a + b)[1..] == a[1..] + b;
      CountOnConcat(a[1..], b, date);
    }
  }

  lemma {:induction false} CountOnAbsent(s: seq<Commit>, date: Date)
    requires forall i | 0 <= i < |s| :: s[i].timestamp.date != date
    ensures CountOn(s, date) == 0
  {
    if s != [] {
      CountOnAbsent(s[1..], date);
    }
  }

  lemma {:induction false} CountOnAll(s: seq<Commit>, date: Date)
    requires forall i | 0 <= i < |s| :: s[i].timestamp.date == date
    ensures CountOn(s, date) == |s|
  {
    if s != [] {
      CountOnAll(s[1..], date);
    }
  }

  /** The loop of `generateCommits` from date `d` on: each day's count is
      drawn, that day's commits are emitted, and the walk moves to `d + 1`.
      The first exception ends the walk. */
  function GenerateFrom(gen: Generator, c: HistoryConfig, author: Author, d: Date, end: Date, g: Rng)
    : (r: Result<(seq<Commit>, Rng)>)
    ensures d > end ==> r == Ok(([], g))
    ensures r.Ok? ==> r.value.1.source == g.source && r.value.1.position >= g.position
    ensures r.Ok? ==> forall i | 0 <= i < |r.value.0| :: Fits(r.value.0[i], author, d, end)
    ensures r.Ok? ==> SortedByDate(r.value.0)
    ensures r.Ok? ==> forall day | d <= day <= end :: DailyCountOk(gen, day, c, CountOn(r.value.0, day))
    ensures r.Ok? && d <= end ==>
      && CommitsForDate(gen, d, c, g).Ok?
      && CountOn(r.value.0, d) == (if CommitsForDate(gen, d, c, g).value.0 <= 0 then 0
                                   else CommitsForDate(gen, d, c, g).value.0)
    ensures r.Err? ==> r.failure in SAMPLER_FAILURES
    decreases end - d + 1
  {
    if d > end then Ok(([], g))
    else
      match CommitsForDate(gen, d, c, g)
      case Err(e) => Err(e)
      case Ok((n, g1)) =>
        var (today, g2) := DayCommits(d, n, author, g1);
        match GenerateFrom(gen, c, author, d + 1, end, g2)
        case Err(e) => Err(e)
        case Ok((later, g3)) =>
          var all := today + later;
          JoinDays(gen, c, author, d, end, n, today, later);
          Ok((all, g3))
  }

  /** Joining one day's commits to those of the following days keeps every
      property `GenerateFrom` promises. */
  lemma JoinDays(gen: Generator, c: HistoryConfig, author: Author, d: Date, end: Date,
                 n: int, today: seq<Commit>, later: seq<Commit>)
    requires d <= end && DailyCountOk(gen, d, c, n)
    requires |today| == (if n <= 0 then 0 else n)
    requires forall i | 0 <= i < |today| :: Fits(today[i], author, d, d)
    requires forall i | 0 <= i < |later| :: Fits(later[i], author, d + 1, end)
    requires SortedByDate(later)
    requires forall day | d + 1 <= day <= end :: DailyCountOk(gen, day, c, CountOn(later, day))
    ensures forall i | 0 <= i < |today + later| :: Fits((today + later)[i], author, d, end)
    ensures SortedByDate(today + later)
    ensures forall day | d <= day <= end :: DailyCountOk(gen, day, c, CountOn(today + later, day))
    ensures CountOn(today + later, d) == (if n <= 0 then 0 else n)
  {
    JoinFits(author, d, end, today, later);
    JoinSorted(d, end, today, later);
    JoinCounts(gen, c, d, end, n, today, later);
  }

  lemma JoinFits(author: Author, d: Date, end: Date, today: seq<Commit>, later: seq<Commit>)
    requires d <= end
    requires forall i | 0 <= i < |today| :: Fits(today[i], author, d, d)
    requires forall i | 0 <= i < |later| :: Fits(later[i], author, d + 1, end)
    ensures forall i | 0 <= i < |today + later| :: Fits((today + later)[i], author, d, end)
  {
    var all := today + later;
    forall i | 0 <= i < |all| ensures Fits(all[i], author, d, end) {
      if i < |today| { assert all[i] == today[i]; } else { assert all[i] == later[i - |today|]; }
    }
  }

  lemma JoinSorted(d: Date, end: Date, today: seq<Commit>, later: seq<Commit>)
    requires forall i | 0 <= i < |today| :: today[i].timestamp.date == d
    requires forall i | 0 <= i < |later| :: d + 1 <= later[i].timestamp.date
    requires SortedByDate(later)
    ensures SortedByDate(today + later)
  {
    var all := today + later;
    forall i, j | 0 <= i < j < |all| ensures all[i].timestamp.date <= all[j].timestamp.date {
      if j < |today| {
        assert all[i] == today[i] && all[j] == today[j];
      } else if i < |today| {
        assert all[i] == today[i] && all[j] == later[j - |today|];
      } else {
        assert all[i] == later[i - |today|] && all[j] == later[j - |today|];
      }
    }
  }

  lemma JoinCounts(gen: Generator, c: HistoryConfig, d: Date, end: Date,
                   n: int, today: seq<Commit>, later: seq<Commit>)
    requires d <= end && DailyCountOk(gen, d, c, n)
    requires |today| == (if n <= 0 then 0 else n)
    requires forall i | 0 <= i < |today| :: today[i].timestamp.date == d
    requires forall i | 0 <= i < |later| :: d + 1 <= later[i].timestamp.date
    requires forall day | d + 1 <= day <= end :: DailyCountOk(gen, day, c, CountOn(later, day))
    ensures forall day | d <= day <= end :: DailyCountOk(gen, day, c, CountOn(today + later, day))
    ensures CountOn(today + later, d) == (if n <= 0 then 0 else n)
  {
    var all := today + later;
    CountOnConcat(today, later, d);
    CountOnAll(today, d);
    CountOnAbsent(later, d);
    forall day | d <= day <= end ensures DailyCountOk(gen, day, c, CountOn(all, day)) {
      CountOnConcat(today, later, day);
      if day == d {
        CountOnAll(today, d);
        CountOnAbsent(later, d);
        assert n <= 0 ==> CountOn(all, day) == 0;
        assert n > 0 ==> CountOn(all, day) == n;
      } else {
        CountOnAbsent(today, day);
      }
    }
  }


  /** One turn of the date loop, for proofs that follow it day by day. */
  lemma GenerateFromStep(gen: Generator, c: HistoryConfig, author: Author, d: Date, end: Date, g: Rng)
    requires d <= end
    ensures var r := GenerateFrom(gen, c, author, d, end, g);
      var s := CommitsForDate(gen, d, c, g);
      s.Ok? ==>
        var day := DayCommits(d, s.value.0, author, s.value.1);
        var rest := GenerateFrom(gen, c, author, d + 1, end, day.1);
        rest.Ok? ==> r == Ok((day.0 + rest.value.0, rest.value.1))
    ensures var r := GenerateFrom(gen, c, author, d, end, g);
      var s := CommitsForDate(gen, d, c, g);
      r.Ok? ==> s.Ok? && GenerateFrom(gen, c, author, d + 1, end, DayCommits(d, s.value.0, author, s.value.1).1).Ok?
  {
  }

  /** The author a generator attaches to every commit. */
  function ConfigAuthor(c: HistoryConfig): Author {
    Author(c.authorName, c.authorEmail)
  }

  /** `generateCommits`.  A null start date fails at `current.isAfter`, a
      null end date inside it; otherwise the walk runs from start to end. */
  function GenerateCommits(gen: Generator, c: HistoryConfig, g: Rng): (r: Result<(seq<Commit>, Rng)>)
    ensures c.startDate.None? || c.endDate.None? ==> r == Err(NullPointer)
    ensures c.startDate.Some? && c.endDate.Some? && c.startDate.value > c.endDate.value ==>
      r == Ok(([], g))
    ensures r.Ok? ==> c.startDate.Some? && c.endDate.Some?
    ensures r.Ok? ==> forall i | 0 <= i < |r.value.0| ::
      Fits(r.value.0[i], ConfigAuthor(c), c.startDate.value, c.endDate.value)
    ensures r.Ok? ==> SortedByDate(r.value.0)
    ensures r.Ok? ==> forall day | c.startDate.value <= day <= c.endDate.value ::
      DailyCountOk(gen, day, c, CountOn(r.value.0, day))
    ensures r.Ok? && c.startDate.value <= c.endDate.value ==>
      var first := CommitsForDate(gen, c.startDate.value, c, g);
      first.Ok? && CountOn(r.value.0, c.startDate.value) == (if first.value.0 <= 0 then 0 else first.value.0)
    ensures r.Err? ==> r.failure == NullPointer || r.failure in SAMPLER_FAILURES
  {
    if c.startDate.None? || c.endDate.None? then Err(NullPointer)
    else GenerateFrom(gen, c, ConfigAuthor(c), c.startDate.value, c.endDate.value, g)
  }

  /** A day's count depends only on the variates it reads: one for the
      probability draw and, when the day contributes, one for the count. */
  lemma CountReadsItsDraws(gen: Generator, date: Date, c: HistoryConfig, g1: Rng, g2: Rng)
    requires CommitsForDate(gen, date, c, g1).Ok?
    requires Agree(g1, g2, CommitsForDate(gen, date, c, g1).value.1.position)
    ensures CommitsForDate(gen, date, c, g2).Ok?
    ensures CommitsForDate(gen, date, c, g2).value.0 == CommitsForDate(gen, date, c, g1).value.0
    ensures CommitsForDate(gen, date, c, g2).value.1.position
         == CommitsForDate(gen, date, c, g1).value.1.position
  {
    var upto := CommitsForDate(gen, date, c, g1).value.1.position;
    AgreeStep(g1, g2, upto);
    if upto == g1.position + 2 {
      AgreeStep(g1.Advance(), g2.Advance(), upto);
    }
  }

  /** One commit depends only on its own draws. */
  lemma CommitReadsItsDraws(date: Date, author: Author, g1: Rng, g2: Rng)
    requires Agree(g1, g2, MakeCommit(date, author, g1).1.position)
    ensures MakeCommit(date, author, g2).0 == MakeCommit(date, author, g1).0
    ensures MakeCommit(date, author, g2).1.position == MakeCommit(date, author, g1).1.position
  {
    var upto := MakeCommit(date, author, g1).1.position;
    var h1, h2 := g1.Advance().Advance(), g2.Advance().Advance();
    assert g1.Current() == g2.Current() && g1.Advance().Current() == g2.Advance().Current()
        && Agree(h1, h2, upto) by {
      AgreeStep(g1, g2, upto);
      AgreeStep(g1.Advance(), g2.Advance(), upto);
    }
    var m1, m2 := GenerateCommitMessage(h1), GenerateCommitMessage(h2);
    assert m2.0 == m1.0 && Agree(m1.1, m2.1, upto) by {
      AgreeShorter(h1, h2, upto, m1.1.position);
      MessageReadsItsDraws(h1, h2);
      AgreeLater(h1, h2, upto, m1.1, m2.1);
    }
    LogLineReadsItsDraws(date, m1.1, m2.1);
  }

  lemma CommitStepReadsOwnDraws(date: Date, author: Author)
    ensures ReadsOwnDraws(CommitStep(date, author))
  {
    var step := CommitStep(date, author);
    forall g1: Rng, g2: Rng | Agree(g1, g2, step(g1).1.position)
      ensures step(g2).0 == step(g1).0 && step(g2).1.position == step(g1).1.position
    {
      CommitReadsItsDraws(date, author, g1, g2);
    }
  }

  /** One day's commits depend only on the variates they read. */
  lemma DayReadsItsDraws(date: Date, n: int, author: Author, g1: Rng, g2: Rng)
    requires Agree(g1, g2, DayCommits(date, n, author, g1).1.position)
    ensures DayCommits(date, n, author, g2).0 == DayCommits(date, n, author, g1).0
    ensures DayCommits(date, n, author, g2).1.position == DayCommits(date, n, author, g1).1.position
  {
    CommitStepReadsOwnDraws(date, author);
    RepeatReadsItsDraws(CommitStep(date, author), n, g1, g2);
  }

  /** One turn of the date loop: the day's count, then that many commits. */
  function DayRun(gen: Generator, c: HistoryConfig, author: Author): (Date, Rng) -> Result<(seq<Commit>, Rng)> {
    (d: Date, g: Rng) =>
      match CommitsForDate(gen, d, c, g)
      case Err(e) => Err(e)
      case Ok((n, g1)) => Ok(DayCommits(d, n, author, g1))
  }

  /** A day that, when it succeeds, keeps the source, never moves back and
      depends only on the variates it reads. */
  ghost predicate DayReadsOwnDraws<T>(day: (Date, Rng) -> Result<(seq<T>, Rng)>) {
    && (forall d: Date, g: Rng | day(d, g).Ok? ::
          day(d, g).value.1.source == g.source && g.position <= day(d, g).value.1.position)
    && (forall d: Date, g1: Rng, g2: Rng | day(d, g1).Ok? && Agree(g1, g2, day(d, g1).value.1.position) ::
          && day(d, g2).Ok?
          && day(d, g2).value.0 == day(d, g1).value.0
          && day(d, g2).value.1.position == day(d, g1).value.1.position)
  }

  /** The date loop from `d` to `end` with the work of one day left abstract;
      the first failure ends it. */
  ghost function Walk<T>(day: (Date, Rng) -> Result<(seq<T>, Rng)>, d: Date, end: Date, g: Rng)
    : Result<(seq<T>, Rng)>
    decreases end - d + 1
  {
    if d > end then Ok(([], g))
    else
      match day(d, g)
      case Err(e) => Err(e)
      case Ok((today, g1)) =>
        match Walk(day, d + 1, end, g1)
        case Err(e) => Err(e)
        case Ok((later, g2)) => Ok((today + later, g2))
  }

  lemma {:induction false} WalkMoves<T>(day: (Date, Rng) -> Result<(seq<T>, Rng)>, d: Date, end: Date, g: Rng)
    requires DayReadsOwnDraws(day)
    requires Walk(day, d, end, g).Ok?
    ensures Walk(day, d, end, g).value.1.source == g.source
    ensures g.position <= Walk(day, d, end, g).value.1.position
    decreases end - d + 1
  {
    if d <= end {
      WalkMoves(day, d + 1, end, day(d, g).value.1);
    }
  }

  /** Walking days that read only their own draws reads only the draws of
      the whole walk. */
  lemma {:induction false} WalkReadsItsDraws<T>(day: (Date, Rng) -> Result<(seq<T>, Rng)>,
                                                d: Date, end: Date, g1: Rng, g2: Rng)
    requires DayReadsOwnDraws(day)
    requires Walk(day, d, end, g1).Ok?
    requires Agree(g1, g2, Walk(day, d, end, g1).value.1.position)
    ensures Walk(day, d, end, g2).Ok?
    ensures Walk(day, d, end, g2).value.0 == Walk(day, d, end, g1).value.0
    ensures Walk(day, d, end, g2).value.1.position == Walk(day, d, end, g1).value.1.position
    decreases end - d + 1
  {
    if d <= end {
      var upto := Walk(day, d, end, g1).value.1.position;
      var s1, s2 := day(d, g1), day(d, g2);
      WalkMoves(day, d + 1, end, s1.value.1);
      AgreeShorter(g1, g2, upto, s1.value.1.position);
      AgreeLater(g1, g2, upto, s1.value.1, s2.value.1);
      WalkReadsItsDraws(day, d + 1, end, s1.value.1, s2.value.1);
    }
  }

  /** One day, its count and then its commits, depends only on the
      variates it reads. */
  lemma DayRunReadsItsDraws(gen: Generator, c: HistoryConfig, author: Author, d: Date, g1: Rng, g2: Rng)
    requires DayRun(gen, c, author)(d, g1).Ok?
    requires Agree(g1, g2, DayRun(gen, c, author)(d, g1).value.1.position)
    ensures DayRun(gen, c, author)(d, g2).Ok?
    ensures DayRun(gen, c, author)(d, g2).value.0 == DayRun(gen, c, author)(d, g1).value.0
    ensures DayRun(gen, c, author)(d, g2).value.1.position == DayRun(gen, c, author)(d, g1).value.1.position
  {
    var upto := DayRun(gen, c, author)(d, g1).value.1.position;
    var s1, s2 := CommitsForDate(gen, d, c, g1), CommitsForDate(gen, d, c, g2);
    AgreeShorter(g1, g2, upto, s1.value.1.position);
    CountReadsItsDraws(gen, d, c, g1, g2);
    AgreeLater(g1, g2, upto, s1.value.1, s2.value.1);
    DayReadsItsDraws(d, s1.value.0, author, s1.value.1, s2.value.1);
  }

  lemma DayRunReadsOwnDraws(gen: Generator, c: HistoryConfig, author: Author)
    ensures DayReadsOwnDraws(DayRun(gen, c, author))
  {
    var day := DayRun(gen, c, author);
    forall d: Date, g1: Rng, g2: Rng | day(d, g1).Ok? && Agree(g1, g2, day(d, g1).value.1.position)
      ensures && day(d, g2).Ok?
              && day(d, g2).value.0 == day(d, g1).value.0
              && day(d, g2).value.1.position == day(d, g1).value.1.position
    {
      DayRunReadsItsDraws(gen, c, author, d, g1, g2);
    }
  }

  /** The date loop of `generateCommits` is the generic walk over its days. */
  lemma {:induction false} GenerateFromWalks(gen: Generator, c: HistoryConfig, author: Author,
                                             d: Date, end: Date, g: Rng)
    ensures GenerateFrom(gen, c, author, d, end, g) == Walk(DayRun(gen, c, author), d, end, g)
    decreases end - d + 1
  {
    if d <= end {
      var s := CommitsForDate(gen, d, c, g);
      if s.Ok? {
        var day := DayCommits(d, s.value.0, author, s.value.1);
        assert DayRun(gen, c, author)(d, g) == Ok(day);
        GenerateFromWalks(gen, c, author, d + 1, end, day.1);
      }
    }
  }

  /** A successful walk depends only on the variates it reads: a stream
      that agrees with it over that span gives the same commits and stops
      at the same position. */
  lemma RunReadsItsDraws(gen: Generator, c: HistoryConfig, author: Author,
                         d: Date, end: Date, g1: Rng, g2: Rng)
    requires GenerateFrom(gen, c, author, d, end, g1).Ok?
    requires Agree(g1, g2, GenerateFrom(gen, c, author, d, end, g1).value.1.position)
    ensures GenerateFrom(gen, c, author, d, end, g2).Ok?
    ensures GenerateFrom(gen, c, author, d, end, g2).value.0
         == GenerateFrom(gen, c, author, d, end, g1).value.0
    ensures GenerateFrom(gen, c, author, d, end, g2).value.1.position
         == GenerateFrom(gen, c, author, d, end, g1).value.1.position
  {
    GenerateFromWalks(gen, c, author, d, end, g1);
    GenerateFromWalks(gen, c, author, d, end, g2);
    DayRunReadsOwnDraws(gen, c, author);
    WalkReadsItsDraws(DayRun(gen, c, author), d, end, g1, g2);
  }

  /** `generateCommits` after `setSeed`: the history depends only on the
      variates the seed determines, so two seeded streams that agree on the
      prefix one run reads give the same commits, whatever was read before
      either seed was set. */
  lemma SeedDeterminesHistory(gen: Generator, c: HistoryConfig,
                              seeding1: Seeding, seed1: int, seeding2: Seeding, seed2: int)
    requires GenerateCommits(gen, c, SetSeed(seeding1, seed1)).Ok?
    requires forall i: nat | i < GenerateCommits(gen, c, SetSeed(seeding1, seed1)).value.1.position ::
      seeding1(seed1)(i) == seeding2(seed2)(i)
    ensures GenerateCommits(gen, c, SetSeed(seeding2, seed2)).Ok?
    ensures GenerateCommits(gen, c, SetSeed(seeding2, seed2)).value.0
         == GenerateCommits(gen, c, SetSeed(seeding1, seed1)).value.0
  {
    var g1, g2 := SetSeed(seeding1, seed1), SetSeed(seeding2, seed2);
    var upto := GenerateCommits(gen, c, g1).value.1.position;
    AgreePointwise(g1, g2, upto);
    RunReadsItsDraws(gen, c, ConfigAuthor(c), c.startDate.value, c.endDate.value, g1, g2);
  }

  /** The commits dated within `from..end`, counted day by day. */
  function CountRange(s: seq<Commit>, from: Date, end: Date): nat
    decreases end - from + 1
  {
    if from > end then 0 else CountOn(s, from) + CountRange(s, from + 1, end)
  }

  lemma {:induction false} CountRangeEmpty(from: Date, end: Date)
    ensures CountRange([], from, end) == 0
    decreases end - from + 1
  {
    if from <= end {
      CountRangeEmpty(from + 1, end);
    }
  }

  lemma {:induction false} CountRangeConcat(a: seq<Commit>, b: seq<Commit>, from: Date, end: Date)
    ensures CountRange(a + b, from, end) == CountRange(a, from, end) + CountRange(b, from, end)
    decreases end - from + 1
  {
    if from <= end {
      CountOnConcat(a, b, from);
      CountRangeConcat(a, b, from + 1, end);
    }
  }

  lemma {:induction false} CountRangeSingle(x: Commit, from: Date, end: Date)
    ensures CountRange([x], from, end) == if from <= x.timestamp.date <= end then 1 else 0
    decreases end - from + 1
  {
    if from <= end {
      assert CountOn([x], from) == if x.timestamp.date == from then 1 else 0 by {
        assert [x][1..] == [];
      }
      CountRangeSingle(x, from + 1, end);
    }
  }

  /** A list whose commits are all dated within `from..end` is as long as
      the sum of its per-day counts over that range. */
  lemma {:induction false} LengthIsSumOfDailyCounts(s: seq<Commit>, from: Date, end: Date)
    requires forall i | 0 <= i < |s| :: from <= s[i].timestamp.date <= end
    ensures |s| == CountRange(s, from, end)
    decreases |s|
  {
    if s == [] {
      CountRangeEmpty(from, end);
    } else {
      assert s == [s[0]] + s[1..];
      CountRangeConcat([s[0]], s[1..], from, end);
      CountRangeSingle(s[0], from, end);
      LengthIsSumOfDailyCounts(s[1..], from, end);
    }
  }

  /** The counts `getCommitsForDate` draws on days `d..end` of one walk, in
      order, each drawn from the stream the previous day's commits left; a
      failing draw ends the list as it ends the walk. */
  ghost function DrawnCounts(gen: Generator, c: HistoryConfig, author: Author, d: Date, end: Date, g: Rng)
    : seq<int>
    decreases end - d + 1
  {
    if d > end then []
    else
      match CommitsForDate(gen, d, c, g)
      case Err(_) => []
      case Ok((n, g1)) => [n] + DrawnCounts(gen, c, author, d + 1, end, DayCommits(d, n, author, g1).1)
  }

  /** One turn of the date loop, seen from the drawn counts. */
  lemma DrawnCountsStep(gen: Generator, c: HistoryConfig, author: Author, d: Date, end: Date, g: Rng)
    requires d <= end && CommitsForDate(gen, d, c, g).Ok?
    ensures var s := CommitsForDate(gen, d, c, g);
      DrawnCounts(gen, c, author, d, end, g)
      == [s.value.0] + DrawnCounts(gen, c, author, d + 1, end, DayCommits(d, s.value.0, author, s.value.1).1)
  {
  }

  /** How many commits a list of drawn counts asks for: a count of zero or
      less asks for none. */
  function PositiveTotal(counts: seq<int>): nat {
    if counts == [] then 0
    else (if counts[0] <= 0 then 0 else counts[0]) + PositiveTotal(counts[1..])
  }

  /** Day `d + k` of `commits` holds exactly `counts[k]` commits (none when
      that count is zero or less), and `commits` holds nothing else. */
  ghost predicate FollowsDraws(commits: seq<Commit>, counts: seq<int>, d: Date) {
    && |commits| == PositiveTotal(counts)
    && forall k | 0 <= k < |counts| :: CountOn(commits, d + k) == (if counts[k] <= 0 then 0 else counts[k])
  }

  /** One day's commits followed by later days' commits: the first day holds
      exactly its own count, and every later day what it held before. */
  lemma CountsSplit(today: seq<Commit>, later: seq<Commit>, d: Date, n: int, rest: seq<int>)
    requires |today| == (if n <= 0 then 0 else n)
    requires forall i | 0 <= i < |today| :: today[i].timestamp.date == d
    requires forall i | 0 <= i < |later| :: d + 1 <= later[i].timestamp.date
    requires forall k | 0 <= k < |rest| :: CountOn(later, d + 1 + k) == (if rest[k] <= 0 then 0 else rest[k])
    ensures forall k | 0 <= k < |[n] + rest| ::
      CountOn(today + later, d + k) == (if ([n] + rest)[k] <= 0 then 0 else ([n] + rest)[k])
  {
    var counts := [n] + rest;
    forall k | 0 <= k < |counts|
      ensures CountOn(today + later, d + k) == (if counts[k] <= 0 then 0 else counts[k])
    {
      CountOnConcat(today, later, d + k);
      if k == 0 {
        CountOnAll(today, d);
        CountOnAbsent(later, d);
      } else {
        CountOnAbsent(today, d + k);
        assert counts[k] == rest[k - 1] && d + k == d + 1 + (k - 1);
      }
    }
  }

  /** `DailyCountsFollowDraws` for one more day, given it for the days after. */
  lemma CountsJoin(author: Author, today: seq<Commit>, later: seq<Commit>, d: Date, end: Date,
                   n: int, rest: seq<int>)
    requires d <= end
    requires |today| == (if n <= 0 then 0 else n)
    requires forall i | 0 <= i < |today| :: Fits(today[i], author, d, d)
    requires forall i | 0 <= i < |later| :: Fits(later[i], author, d + 1, end)
    requires |rest| == (if d + 1 > end then 0 else DaysBetween(d + 1, end))
    requires FollowsDraws(later, rest, d + 1)
    ensures |[n] + rest| == DaysBetween(d, end)
    ensures FollowsDraws(today + later, [n] + rest, d)
  {
    assert ([n] + rest)[1..] == rest;
    CountsSplit(today, later, d, n, rest);
  }

  /** Every day of a completed walk holds exactly the count drawn for it
      (none when the draw is zero or less), and the walk's output is the
      total of those counts. */
  lemma {:induction false} DailyCountsFollowDraws(
    gen: Generator, c: HistoryConfig, author: Author, d: Date, end: Date, g: Rng)
    requires GenerateFrom(gen, c, author, d, end, g).Ok?
    ensures |DrawnCounts(gen, c, author, d, end, g)| == (if d > end then 0 else DaysBetween(d, end))
    ensures FollowsDraws(GenerateFrom(gen, c, author, d, end, g).value.0, DrawnCounts(gen, c, author, d, end, g), d)
    decreases end - d + 1
  {
    if d <= end {
      var s := CommitsForDate(gen, d, c, g);
      GenerateFromStep(gen, c, author, d, end, g);
      var day := DayCommits(d, s.value.0, author, s.value.1);
      var rest := GenerateFrom(gen, c, author, d + 1, end, day.1);
      DrawnCountsStep(gen, c, author, d, end, g);
      DailyCountsFollowDraws(gen, c, author, d + 1, end, day.1);
      var later := DrawnCounts(gen, c, author, d + 1, end, day.1);
      CountsJoin(author, day.0, rest.value.0, d, end, s.value.0, later);
    }
  }

  /** The output of `generateCommits` is the sum over `start..end` of the
      per-day counts, each of which the generator's rule admits and each of
      which is the count drawn for that day. */
  lemma GeneratedLengthIsSumOfDailyCounts(gen: Generator, c: HistoryConfig, g: Rng)
    requires GenerateCommits(gen, c, g).Ok?
    ensures var commits, start, end := GenerateCommits(gen, c, g).value.0, c.startDate.value, c.endDate.value;
      && |commits| == CountRange(commits, start, end)
      && forall day | start <= day <= end :: DailyCountOk(gen, day, c, CountOn(commits, day))
    ensures var commits, start, end := GenerateCommits(gen, c, g).value.0, c.startDate.value, c.endDate.value;
      var counts := DrawnCounts(gen, c, ConfigAuthor(c), start, end, g);
      && |counts| == (if start > end then 0 else DaysBetween(start, end))
      && |commits| == PositiveTotal(counts)
      && forall k | 0 <= k < |counts| :: CountOn(commits, start + k) == (if counts[k] <= 0 then 0 else counts[k])
  {
    var commits := GenerateCommits(gen, c, g).value.0;
    LengthIsSumOfDailyCounts(commits, c.startDate.value, c.endDate.value);
    DailyCountsFollowDraws(gen, c, ConfigAuthor(c), c.startDate.value, c.endDate.value, g);
  }

  /** Probability 0 gives no commits on any day, for either generator. */
  lemma {:induction false} ZeroProbabilityGeneratesNothing(
    gen: Generator, c: HistoryConfig, author: Author, d: Date, end: Date, g: Rng)
    requires c.contributionProbability == 0.0
    ensures var r := GenerateFrom(gen, c, author, d, end, g);
      r.Ok? && r.value.0 == [] && r.value.1.source == g.source
      && r.value.1.position == g.position + (if d > end then 0 else DaysBetween(d, end))
    decreases end - d + 1
  {
    if d <= end {
      var g1 := g.Advance();
      assert CommitsForDate(gen, d, c, g) == Ok((0, g1)) by {
        assert DrawProbability(gen, d, c) == 0.0;
      }
      assert DayCommits(d, 0, author, g1) == ([], g1);
      ZeroProbabilityGeneratesNothing(gen, c, author, d + 1, end, g1);
      GenerateFromStep(gen, c, author, d, end, g);
      assert DaysBetween(d, end) == 1 + if d + 1 > end then 0 else DaysBetween(d + 1, end);
    }
  }


  /** The uniform generator with probability 1 and `min = max = k` emits
      exactly `k` commits a day, `k * daysBetween(d, end)` in all. */
  lemma {:induction false} FixedDailyCount(c: HistoryConfig, author: Author, d: Date, end: Date, g: Rng)
    requires c.contributionProbability == 1.0
    requires 0 <= c.commitsPerDayMin == c.commitsPerDayMax
    ensures GenerateFrom(RandomGenerator, c, author, d, end, g).Ok?
    ensures |GenerateFrom(RandomGenerator, c, author, d, end, g).value.0|
      == if d > end then 0 else c.commitsPerDayMin * DaysBetween(d, end)
    decreases end - d + 1
  {
    if d <= end {
      var k := c.commitsPerDayMin;
      var g2 := g.Advance().Advance();
      assert CommitsForDate(RandomGenerator, d, c, g) == Ok((k, g2)) by {
        CertainCount(RandomGenerator, d, c, g);
      }
      var day := DayCommits(d, k, author, g2);
      FixedDailyCount(c, author, d + 1, end, day.1);
      GenerateFromStep(RandomGenerator, c, author, d, end, g);
      DailyTotalStep(k, d, end);
    }
  }



  /** `k` commits on each of the days `d..end` are `k` for day `d` plus
      those of the days after it. */
  lemma DailyTotalStep(k: int, d: Date, end: Date)
    requires d <= end
    ensures k * DaysBetween(d, end) == k + if d + 1 > end then 0 else k * DaysBetween(d + 1, end)
  {
    var n := end - d;
    assert DaysBetween(d, end) == n + 1;
    assert k * (n + 1) == k * n + k;
  }

  /** A configuration that passes validation, and whose count span fits in
      an `int`, never makes the loop throw. */
  lemma {:induction false} ValidConfigNeverFails(
    gen: Generator, c: HistoryConfig, author: Author, d: Date, end: Date, g: Rng)
    requires Validate(Some(c)) == Pass
    requires c.commitsPerDayMax - c.commitsPerDayMin < INT_MAX
    ensures GenerateFrom(gen, c, author, d, end, g).Ok?
    decreases end - d + 1
  {
    if d <= end {
      ValidConfigRanges(c);
      AdjustedProbabilityInRange(d, c);
      assert SamplerSafe(gen, d, c);
      var r := CommitsForDate(gen, d, c, g);
      var (today, g2) := DayCommits(d, r.value.0, author, r.value.1);
      ValidConfigNeverFails(gen, c, author, d + 1, end, g2);
    }
  }

  /** The validator admits `min = 0, max = Integer.MAX_VALUE`, but then
      `(max - min) + 1` wraps to a negative bound: a first day that
      contributes throws. */
  lemma WideSpanThrows(gen: Generator, c: HistoryConfig, author: Author, d: Date, end: Date, g: Rng)
    requires Validate(Some(c)) == Pass
    requires c.commitsPerDayMin == 0 && c.commitsPerDayMax == INT_MAX
    requires d <= end && g.Current() < DrawProbability(gen, d, c)
    ensures GenerateFrom(gen, c, author, d, end, g) == Err(IllegalArgument(BOUND_NOT_POSITIVE))
  {
    if gen == IntelligentGenerator { AdjustedProbabilityInRange(d, c); } else { ValidConfigRanges(c); }
    assert NextBoolean(g, DrawProbability(gen, d, c)) == Ok((true, g.Advance()));
    assert NextInt(g.Advance(), 0, INT_MAX) == Err(IllegalArgument(BOUND_NOT_POSITIVE));
  }

  /** A validated day whose probability draw fails contributes nothing and
      reads one variate, whatever the count range. */
  lemma QuietDay(gen: Generator, c: HistoryConfig, d: Date, g: Rng)
    requires Validate(Some(c)) == Pass
    requires !(g.Current() < DrawProbability(gen, d, c))
    ensures CommitsForDate(gen, d, c, g) == Ok((0, g.Advance()))
  {
    if gen == IntelligentGenerator { AdjustedProbabilityInRange(d, c); } else { ValidConfigRanges(c); }
    assert NextBoolean(g, DrawProbability(gen, d, c)) == Ok((false, g.Advance()));
  }

  /** With that span, whichever day contributes first throws: a walk that
      completes contributed on no day and returns no commits. */
  lemma {:induction false} WideSpanNeverCommits(
    gen: Generator, c: HistoryConfig, author: Author, d: Date, end: Date, g: Rng)
    requires Validate(Some(c)) == Pass
    requires c.commitsPerDayMin == 0 && c.commitsPerDayMax == INT_MAX
    requires GenerateFrom(gen, c, author, d, end, g).Ok?
    ensures GenerateFrom(gen, c, author, d, end, g).value.0 == []
    decreases end - d + 1
  {
    if d <= end {
      if g.Current() < DrawProbability(gen, d, c) {
        WideSpanThrows(gen, c, author, d, end, g);
      } else {
        QuietDay(gen, c, d, g);
        GenerateFromStep(gen, c, author, d, end, g);
        WideSpanNeverCommits(gen, c, author, d + 1, end, DayCommits(d, 0, author, g.Advance()).1);
      }
    }
  }

  /** A day drawn with probability 1 and a one-value count range always
      contributes, after exactly two draws: `min` commits for the uniform
      generator, `min` amplified by the day's burst for the other. */
  lemma CertainCount(gen: Generator, date: Date, c: HistoryConfig, g: Rng)
    requires DrawProbability(gen, date, c) == 1.0
    requires c.commitsPerDayMin == c.commitsPerDayMax
    ensures CommitsForDate(gen, date, c, g) == Ok((
      if gen == RandomGenerator then c.commitsPerDayMin
      else Amplify(c.commitsPerDayMin, BurstMultiplier(date, BURST_CHANCE)),
      g.Advance().Advance()))
  {
    assert NextBoolean(g, DrawProbability(gen, date, c)) == Ok((true, g.Advance()));
    assert NextInt(g.Advance(), c.commitsPerDayMin, c.commitsPerDayMax)
      == Ok((c.commitsPerDayMin, g.Advance().Advance()));
  }

  /** A product of at least 1.26 is capped at 1. */
  lemma CapBinds(p: real, factor: real, intensity: real)
    requires p == 1.0 && factor == 1.5 && intensity >= 0.84
    ensures CappedProduct(p, factor, intensity) == 1.0
  {
    assert p * factor == 1.5;
  }

  /** With probability 1 and the default weekday boost of 1.5, every
      weekday is drawn with probability exactly 1: even the lowest weekday
      intensity, 0.84, lifts the product above the cap. */
  lemma FullProbabilityOnWeekdays(date: Date, c: HistoryConfig)
    requires c.contributionProbability == 1.0 && c.weekdayProbabilityBoost == 1.5
    requires IsWeekday(date)
    ensures AdjustedProbability(date, c) == 1.0
  {
    CapBinds(c.contributionProbability, DayFactor(date, c), IntensityMultiplier(date));
  }

  /** With probability 1, the default weekday boost and `min = max = 1`, the
      intelligent generator gives a weekday 2 commits when it is a burst day
      and 1 otherwise. */
  lemma WeekdayCount(date: Date, c: HistoryConfig, g: Rng)
    requires c.contributionProbability == 1.0 && c.weekdayProbabilityBoost == 1.5
    requires c.commitsPerDayMin == 1 && c.commitsPerDayMax == 1
    requires IsWeekday(date)
    ensures CommitsForDate(IntelligentGenerator, date, c, g)
      == Ok((if IsBurstDay(date, BURST_CHANCE) then 2 else 1, g.Advance().Advance()))
  {
    FullProbabilityOnWeekdays(date, c);
    CertainCount(IntelligentGenerator, date, c, g);
  }

  /** The days of 2024 are epoch days 19723 (January 1) to 20088. */
  lemma In2024(date: Date)
    requires 19723 <= date < 20089
    ensures YearOf(date) == 2024 && DayOfYear(date) == date - 19722
  {
    YearStart2024();
    YearOfUnique(date, 2024);
  }

  /** Day `day` of month `month` of 2024 is the epoch day `date`. */
  lemma CivilIn2024(date: Date, month: int, day: int)
    requires IsValid(CivilDate(2024, month, day))
    requires date == 19723 + DaysBeforeMonth(2024, month) + day - 1
    ensures ToCivil(date) == CivilDate(2024, month, day)
    ensures GetMonth(date) == month
  {
    YearStart2024();
    var civil := CivilDate(2024, month, day);
    assert ToEpochDay(civil) == date;
    CivilRoundTrip(civil);
  }

  /** January 1, 2024 is epoch day 19723, and January 1, 2025 is 20089. */
  lemma YearStart2024()
    ensures YearStart(2024) == 19723 && YearStart(2025) == 20089
  {
    assert LeapDaysBefore(2024) == 490 && LeapDaysBefore(2025) == 491;
    assert LeapDaysBefore(1970) == 477;
  }

  /** 2024-01-11 (epoch day 19733) is a Thursday and day 11 of its year,
      whose hash `(11 * 17 + 13) % 100 = 0` makes it a burst day. */
  lemma January11(date: Date)
    requires date == 19733
    ensures ToCivil(date) == CivilDate(2024, 1, 11)
    ensures YearOf(date) == 2024 && GetMonth(date) == 1
    ensures DayOfWeek(date) == 4 && DayOfYear(date) == 11
    ensures BurstMultiplier(date, BURST_CHANCE) == 2.0
  {
    assert DayOfWeek(date) == 4;
    assert YearOf(date) == 2024 && DayOfYear(date) == 11 by { In2024(date); }
    assert BurstMultiplier(date, BURST_CHANCE) == 2.0 by { BurstDaysAtFivePercent(date); }
    CivilIn2024(date, 1, 11);
  }

  /** On that burst day, with probability 1 and `min = max = 1`, the
      intelligent generator returns 2 commits, above the configured maximum. */
  lemma BurstExceedsMax(date: Date, c: HistoryConfig, g: Rng)
    requires date == 19733
    requires c.contributionProbability == 1.0 && c.weekdayProbabilityBoost == 1.5
    requires c.commitsPerDayMin == 1 && c.commitsPerDayMax == 1
    ensures CommitsForDate(IntelligentGenerator, date, c, g) == Ok((2, g.Advance().Advance()))
  {
    assert IsWeekday(date) && IsBurstDay(date, BURST_CHANCE) by {
      assert DayOfWeek(date) == 4;
      In2024(date);
      BurstDaysAtFivePercent(date);
    }
    WeekdayCount(date, c, g);
  }

  /** 2024-09-02 (epoch day 19968) is a Monday and day 246 of its year,
      whose hash `(246 * 17 + 13) % 100 = 95` is no burst. */
  lemma September2(date: Date)
    requires date == 19968
    ensures ToCivil(date) == CivilDate(2024, 9, 2)
    ensures YearOf(date) == 2024 && GetMonth(date) == 9
    ensures DayOfWeek(date) == 1 && DayOfYear(date) == 246
    ensures BurstMultiplier(date, BURST_CHANCE) == 1.0
  {
    assert DayOfWeek(date) == 1;
    assert YearOf(date) == 2024 && DayOfYear(date) == 246 by { In2024(date); }
    assert BurstMultiplier(date, BURST_CHANCE) == 1.0 by { BurstDaysAtFivePercent(date); }
    CivilIn2024(date, 9, 2);
  }

  /** On that Monday, with probability 1 and `min = max = 1`, the
      intelligent generator returns exactly one commit. */
  lemma WeekdayWithoutBurst(date: Date, c: HistoryConfig, g: Rng)
    requires date == 19968
    requires c.contributionProbability == 1.0 && c.weekdayProbabilityBoost == 1.5
    requires c.commitsPerDayMin == 1 && c.commitsPerDayMax == 1
    ensures CommitsForDate(IntelligentGenerator, date, c, g) == Ok((1, g.Advance().Advance()))
  {
    assert IsWeekday(date) && !IsBurstDay(date, BURST_CHANCE) by {
      assert DayOfWeek(date) == 1;
      In2024(date);
      BurstDaysAtFivePercent(date);
    }
    WeekdayCount(date, c, g);
  }

  /** The log line's time comes from draws of its own: on a stream whose
      sixth variate is 0.99 and the others 0, the commit is timed 00:00
      while its log line says hour 23. */
  lemma LogTimeDrawnSeparately(date: Date, author: Author)
    requires 0 <= YearOf(date) <= 9999
    ensures var x := MakeCommit(date, author, Rng((i: nat) => if i == 5 then 0.99 else 0.0, 0)).0;
      && x.timestamp.hour == 0 && x.timestamp.minute == 0
      && ParseLogLine(x.fileContent).Some? && ParseLogLine(x.fileContent).value.hour == 23
  {
    var g := Rng((i: nat) => if i == 5 then 0.99 else 0.0, 0);
    var (hour, g1) := Uniform(g, 0, 23);
    var (minute, g2) := Uniform(g1, 0, 59);
    var (message, g3) := GenerateCommitMessage(g2);
    assert g3.position == 5 && g3.source == g.source;
    assert Scale(g3.Current(), 0, 23) == 23;
  }
}

=== FILE: history_config.dfy ===
/** `HistoryConfig`: the configuration record with its default values, its
    setters (each replaces one field) and its getters. */
module Config {
  import opened JavaLang
  import opened Calendar
  import opened Model

  datatype HistoryConfig = HistoryConfig(
    authorName: Option<string>,
    authorEmail: Option<string>,
    yearsBack: Int32,
    startDate: Option<Date>,
    endDate: Option<Date>,
    pattern: Option<DistributionPattern>,
    commitsPerDayMin: Int32,
    commitsPerDayMax: Int32,
    contributionProbability: real,
    weekdayProbabilityBoost: real,
    weekendProbabilityReduction: real,
    repositoryPath: Option<string>,
    dryRun: bool,
    verbose: bool)

  /** A freshly constructed `HistoryConfig`: the field initialisers, and
      null dates. */
  const DEFAULT_CONFIG := HistoryConfig(
    authorName := Some("Contribution Bot"),
    authorEmail := Some("bot@example.com"),
    yearsBack := 5,
    startDate := None,
    endDate := None,
    pattern := Some(Intelligent),
    commitsPerDayMin := 1,
    commitsPerDayMax := 5,
    contributionProbability := 0.4,
    weekdayProbabilityBoost := 1.5,
    weekendProbabilityReduction := 0.5,
    repositoryPath := Some("./generated-github-repo"),
    dryRun := false,
    verbose := false)

  /** The configurable properties. */
  datatype Field =
    | AuthorNameField | AuthorEmailField | YearsBackField | StartDateField
    | EndDateField | PatternField | CommitsPerDayMinField | CommitsPerDayMaxField
    | ContributionProbabilityField | WeekdayProbabilityBoostField
    | WeekendProbabilityReductionField | RepositoryPathField | DryRunField | VerboseField

  /** One setter call with its argument; a getter's answer is given in the
      same form. */
  datatype Setting =
    | AuthorName(name: Option<string>)
    | AuthorEmail(email: Option<string>)
    | YearsBack(years: Int32)
    | StartDate(start: Option<Date>)
    | EndDate(end: Option<Date>)
    | Pattern(pattern: Option<DistributionPattern>)
    | CommitsPerDayMin(min: Int32)
    | CommitsPerDayMax(max: Int32)
    | ContributionProbability(probability: real)
    | WeekdayProbabilityBoost(boost: real)
    | WeekendProbabilityReduction(reduction: real)
    | RepositoryPath(path: Option<string>)
    | DryRun(dry: bool)
    | Verbose(loud: bool)

  /** The field a setter writes. */
  function FieldOf(s: Setting): Field {
    match s
    case AuthorName(_) => AuthorNameField
    case AuthorEmail(_) => AuthorEmailField
    case YearsBack(_) => YearsBackField
    case StartDate(_) => StartDateField
    case EndDate(_) => EndDateField
    case Pattern(_) => PatternField
    case CommitsPerDayMin(_) => CommitsPerDayMinField
    case CommitsPerDayMax(_) => CommitsPerDayMaxField
    case ContributionProbability(_) => ContributionProbabilityField
    case WeekdayProbabilityBoost(_) => WeekdayProbabilityBoostField
    case WeekendProbabilityReduction(_) => WeekendProbabilityReductionField
    case RepositoryPath(_) => RepositoryPathField
    case DryRun(_) => DryRunField
    case Verbose(_) => VerboseField
  }

  /** The getters: the current value of field `f`. */
  function Get(c: HistoryConfig, f: Field): (s: Setting)
    ensures FieldOf(s) == f
  {
    match f
    case AuthorNameField => AuthorName(c.authorName)
    case AuthorEmailField => AuthorEmail(c.authorEmail)
    case YearsBackField => YearsBack(c.yearsBack)
    case StartDateField => StartDate(c.startDate)
    case EndDateField => EndDate(c.endDate)
    case PatternField => Pattern(c.pattern)
    case CommitsPerDayMinField => CommitsPerDayMin(c.commitsPerDayMin)
    case CommitsPerDayMaxField => CommitsPerDayMax(c.commitsPerDayMax)
    case ContributionProbabilityField => ContributionProbability(c.contributionProbability)
    case WeekdayProbabilityBoostField => WeekdayProbabilityBoost(c.weekdayProbabilityBoost)
    case WeekendProbabilityReductionField => WeekendProbabilityReduction(c.weekendProbabilityReduction)
    case RepositoryPathField => RepositoryPath(c.repositoryPath)
    case DryRunField => DryRun(c.dryRun)
    case VerboseField => Verbose(c.verbose)
  }

  /** The setters: the matching getter then answers the value just set, and
      every other getter answers what it answered before. */
  function Apply(c: HistoryConfig, s: Setting): (r: HistoryConfig)
    ensures Get(r, FieldOf(s)) == s
    ensures forall f | f != FieldOf(s) :: Get(r, f) == Get(c, f)
  {
    match s
    case AuthorName(v) => c.(authorName := v)
    case AuthorEmail(v) => c.(authorEmail := v)
    case YearsBack(v) => c.(yearsBack := v)
    case StartDate(v) => c.(startDate := v)
    case EndDate(v) => c.(endDate := v)
    case Pattern(v) => c.(pattern := v)
    case CommitsPerDayMin(v) => c.(commitsPerDayMin := v)
    case CommitsPerDayMax(v) => c.(commitsPerDayMax := v)
    case ContributionProbability(v) => c.(contributionProbability := v)
    case WeekdayProbabilityBoost(v) => c.(weekdayProbabilityBoost := v)
    case WeekendProbabilityReduction(v) => c.(weekendProbabilityReduction := v)
    case RepositoryPath(v) => c.(repositoryPath := v)
    case DryRun(v) => c.(dryRun := v)
    case Verbose(v) => c.(verbose := v)
  }

  /** A configuration is determined by what its getters answer. */
  lemma GettersDetermineConfig(a: HistoryConfig, b: HistoryConfig)
    requires forall f :: Get(a, f) == Get(b, f)
    ensures a == b
  {
    assert Get(a, AuthorNameField) == Get(b, AuthorNameField);
    assert Get(a, AuthorEmailField) == Get(b, AuthorEmailField);
    assert Get(a, YearsBackField) == Get(b, YearsBackField);
    assert Get(a, StartDateField) == Get(b, StartDateField);
    assert Get(a, EndDateField) == Get(b, EndDateField);
    assert Get(a, PatternField) == Get(b, PatternField);
    assert Get(a, CommitsPerDayMinField) == Get(b, CommitsPerDayMinField);
    assert Get(a, CommitsPerDayMaxField) == Get(b, CommitsPerDayMaxField);
    assert Get(a, ContributionProbabilityField) == Get(b, ContributionProbabilityField);
    assert Get(a, WeekdayProbabilityBoostField) == Get(b, WeekdayProbabilityBoostField);
    assert Get(a, WeekendProbabilityReductionField) == Get(b, WeekendProbabilityReductionField);
    assert Get(a, RepositoryPathField) == Get(b, RepositoryPathField);
    assert Get(a, DryRunField) == Get(b, DryRunField);
    assert Get(a, VerboseField) == Get(b, VerboseField);
  }

  /** Setting a field to the value its getter answers changes nothing. */
  lemma SetCurrentValueIsIdentity(c: HistoryConfig, f: Field)
    ensures Apply(c, Get(c, f)) == c
  {
    var r := Apply(c, Get(c, f));
    forall f' ensures Get(r, f') == Get(c, f') {
      if f' == f { }
    }
    GettersDetermineConfig(r, c);
  }

  /** A sequence of setter calls, applied in order. */
  function ApplyAll(c: HistoryConfig, calls: seq<Setting>): HistoryConfig
    decreases |calls|
  {
    if calls == [] then c else ApplyAll(Apply(c, calls[0]), calls[1..])
  }

  /** Call `i` sets field `f` and no later call does. */
  ghost predicate LastFor(calls: seq<Setting>, f: Field, i: int) {
    && 0 <= i < |calls| && FieldOf(calls[i]) == f
    && forall j | i < j < |calls| :: FieldOf(calls[j]) != f
  }

  /** A call that is last for `f` stays last when a call for another field
      is appended. */
  lemma LastForExtend(calls: seq<Setting>, f: Field, i: int)
    requires |calls| > 0 && FieldOf(calls[|calls| - 1]) != f
    requires LastFor(calls[..|calls| - 1], f, i)
    ensures LastFor(calls, f, i) && calls[i] == calls[..|calls| - 1][i]
  {
    forall j | i < j < |calls| ensures FieldOf(calls[j]) != f {
      if j < |calls| - 1 {
        assert calls[j] == calls[..|calls| - 1][j];
      }
    }
  }

  /** The last call in `calls` that sets field `f`, if any. */
  function LastSet(calls: seq<Setting>, f: Field): (r: Option<Setting>)
    ensures r.Some? ==> r.value in calls && FieldOf(r.value) == f
    ensures r.Some? ==> exists i :: LastFor(calls, f, i) && calls[i] == r.value
    ensures r.None? ==> forall i | 0 <= i < |calls| :: FieldOf(calls[i]) != f
    decreases |calls|
  {
    if calls == [] then None
    else if FieldOf(calls[|calls| - 1]) == f then
      assert LastFor(calls, f, |calls| - 1);
      Some(calls[|calls| - 1])
    else
      var prefix := calls[..|calls| - 1];
      var r := LastSet(prefix, f);
      assert r.Some? ==> exists i :: LastFor(calls, f, i) && calls[i] == r.value by {
        if r.Some? {
          var i :| LastFor(prefix, f, i) && prefix[i] == r.value;
          LastForExtend(calls, f, i);
        }
      }
      r
  }

  /** After any sequence of setter calls, each getter answers the value
      most recently passed to its setter, or the initial value if none was. */
  lemma {:induction false} GetAfterCalls(c: HistoryConfig, calls: seq<Setting>, f: Field)
    ensures Get(ApplyAll(c, calls), f) ==
      match LastSet(calls, f)
      case Some(s) => s
      case None => Get(c, f)
    decreases |calls|
  {
    if calls != [] {
      var init, last := calls[..|calls| - 1], calls[|calls| - 1];
      assert calls == init + [last];
      ApplyAllSnoc(c, init, last);
      GetAfterCalls(c, init, f);
    }
  }

  lemma {:induction false} ApplyAllSnoc(c: HistoryConfig, calls: seq<Setting>, last: Setting)
    ensures ApplyAll(c, calls + [last]) == Apply(ApplyAll(c, calls), last)
    decreases |calls|
  {
    if calls == [] {
      assert ApplyAll(Apply(c, last), []) == Apply(c, last);
    } else {
      assert (calls + [last])[1..] == calls[1..] + [last];
      ApplyAllSnoc(Apply(c, calls[0]), calls[1..], last);
    }
  }
}

=== FILE: java_lang.dfy ===
/** The parts of Java's semantics the model depends on: null references,
    32-bit `int` arithmetic, the `(int)` cast of a `double`, and the two
    unchecked exceptions the core can raise, carried in a `Result`. */
module JavaLang {

  /** A reference that may be null. */
  datatype Option<+T> = None | Some(value: T)

  const INT_MIN: int := -0x8000_0000
  const INT_MAX: int := 0x7FFF_FFFF

  /** Java's `int`. */
  type Int32 = x: int | INT_MIN <= x <= INT_MAX

  /** Two's-complement wrap-around of an `int` result. */
  function Wrap32(x: int): (r: Int32)
    ensures INT_MIN <= x <= INT_MAX ==> r == x
    ensures (x - r) % 0x1_0000_0000 == 0
  {
    (x - INT_MIN) % 0x1_0000_0000 + INT_MIN
  }

  /** Truncation toward zero, the rounding of a narrowing `(int)` cast. */
  function Truncate(x: real): (r: int)
    ensures 0.0 <= x ==> r as real <= x < r as real + 1.0
    ensures x < 0.0 ==> r as real - 1.0 < x <= r as real
  {
    if x >= 0.0 then x.Floor else -((-x).Floor)
  }

  /** `(int) x` for a finite double: truncate, then saturate at the `int` range. */
  function DoubleToInt(x: real): (r: Int32)
    ensures INT_MIN as real <= x <= INT_MAX as real ==> r == Truncate(x)
    ensures x > INT_MAX as real ==> r == INT_MAX
    ensures x < INT_MIN as real ==> r == INT_MIN
  {
    var t := Truncate(x);
    if t > INT_MAX then INT_MAX else if t < INT_MIN then INT_MIN else t
  }

  /** The exceptions that can end a run: the two unchecked ones the core
      throws, and an I/O or git exception from the persistence layer. */
  datatype Failure =
    | IllegalArgument(message: string)
    | NullPointer
    | IoFailure(message: string)

  /** A value, or the exception that ended the computation. */
  datatype Result<+T> = Ok(value: T) | Err(failure: Failure)
}

=== FILE: model.dfy ===
/** The records the generators produce: `Commit`, `Author`, and the
    `DistributionPattern` selector. */
module Model {
  import opened JavaLang
  import opened Calendar

  /** The pattern selector; SEASONAL and WEEKDAY_BIASED have no generator of their own. */
  datatype DistributionPattern = Random | Intelligent | Seasonal | WeekdayBiased

  /** A commit author: the configured name and email, possibly null. */
  datatype Author = Author(name: Option<string>, email: Option<string>)

  /** A local date-time on a whole minute or second; the time zone is left out. */
  datatype Timestamp = Timestamp(date: Date, hour: int, minute: int, second: int)

  /** A `Commit` as the generators leave it: path and content are always set. */
  datatype Commit = Commit(
    timestamp: Timestamp,
    message: string,
    author: Author,
    filePath: string,
    fileContent: string)
}

=== FILE: random_stream.dfy ===
/** `RandomUtil` over an explicit stream of draws instead of a hidden
    `java.util.Random`.  A stream is an infinite sequence of uniform
    variates in [0, 1) and a read position; every successful call reads the
    variate at the position and advances it by one.  How a seed produces the
    variates (Java's linear congruential generator) is left abstract. */
module RandomStream {
  import opened JavaLang

  /** One uniform draw in [0, 1). */
  type Variate = u: real | 0.0 <= u < 1.0

  datatype Rng = Rng(source: nat -> Variate, position: nat) {
    /** The variate the next call reads. */
    function Current(): Variate {
      source(position)
    }

    /** The stream after one draw. */
    function Advance(): (g: Rng)
      ensures g.source == source && g.position == position + 1
    {
      Rng(source, position + 1)
    }
  }

  /** A seeding: the variate sequence a generator produces from each seed. */
  type Seeding = int -> (nat -> Variate)

  /** `RandomUtil.setSeed`: start reading the sequence that the seed
      determines from its beginning, whatever was read before. */
  function SetSeed(seeding: Seeding, seed: int): (g: Rng)
    ensures g.position == 0
    ensures forall i: nat :: g.source(i) == seeding(seed)(i)
  {
    Rng(seeding(seed), 0)
  }

  /** The streams `g1` and `g2` stand at the same position and hold the
      same variates from there up to, not including, position `upto`. */
  ghost predicate Agree(g1: Rng, g2: Rng, upto: nat)
    decreases upto - g1.position
  {
    && g1.position == g2.position
    && (g1.position < upto ==> g1.Current() == g2.Current() && Agree(g1.Advance(), g2.Advance(), upto))
  }

  /** Reading one variate from agreeing streams reads the same value and
      leaves them agreeing on the rest of the span. */
  lemma AgreeStep(g1: Rng, g2: Rng, upto: nat)
    requires Agree(g1, g2, upto) && g1.position < upto
    ensures g1.Current() == g2.Current()
    ensures Agree(g1.Advance(), g2.Advance(), upto)
  {
  }

  /** Streams agree over a span exactly when they hold the same variate at
      each of its positions. */
  lemma {:induction false} AgreePointwise(g1: Rng, g2: Rng, upto: nat)
    requires g1.position == g2.position
    ensures Agree(g1, g2, upto) <==>
      forall i: nat | g1.position <= i < upto :: g1.source(i) == g2.source(i)
    decreases upto - g1.position
  {
    if g1.position < upto {
      AgreePointwise(g1.Advance(), g2.Advance(), upto);
    }
  }

  /** Agreement up to `upto` implies agreement up to any earlier position. */
  lemma {:induction false} AgreeShorter(g1: Rng, g2: Rng, upto: nat, upto': nat)
    requires Agree(g1, g2, upto) && upto' <= upto
    ensures Agree(g1, g2, upto')
    decreases upto - g1.position
  {
    if g1.position < upto' {
      AgreeShorter(g1.Advance(), g2.Advance(), upto, upto');
    }
  }

  /** Agreeing streams read further along their own sources still agree on
      the rest of the span. */
  lemma {:induction false} AgreeLater(g1: Rng, g2: Rng, upto: nat, f1: Rng, f2: Rng)
    requires Agree(g1, g2, upto)
    requires f1.source == g1.source && f2.source == g2.source
    requires g1.position <= f1.position && f1.position == f2.position
    ensures Agree(f1, f2, upto)
    decreases f1.position - g1.position
  {
    if f1.position == g1.position {
      assert f1 == g1 && f2 == g2;
    } else if g1.position < upto {
      AgreeLater(g1.Advance(), g2.Advance(), upto, f1, f2);
    }
  }

  /** A stream whose first variates are `vs`, read from position 0. */
  function Scripted(vs: seq<Variate>): (g: Rng)
    ensures g.position == 0
    ensures forall i | 0 <= i < |vs| :: g.source(i) == vs[i]
  {
    Rng((i: nat) => if i < |vs| then vs[i] else 0.0, 0)
  }

  /** Maps a variate onto `lo..hi` in `hi - lo + 1` equal-width slots. */
  function Scale(u: Variate, lo: int, hi: int): (r: int)
    requires lo <= hi
    ensures lo <= r <= hi
  {
    var n := hi - lo + 1;
    assert 0.0 <= u * n as real < n as real by {
      assert u * n as real < 1.0 * n as real;
    }
    lo + (u * n as real).Floor
  }

  /** Each value of `lo..hi` is hit by exactly the variates of its own slot
      of width `1 / (hi - lo + 1)`: the draw is uniform. */
  lemma ScaleSlot(u: Variate, lo: int, hi: int, k: int)
    requires lo <= hi && 0 <= k <= hi - lo
    ensures Scale(u, lo, hi) == lo + k <==>
      k as real <= u * (hi - lo + 1) as real < (k + 1) as real
  {
  }

  /** The variate `k / n` lands in slot `k`, so every value is reachable. */
  lemma ScaleHits(lo: int, hi: int, k: int)
    requires lo <= hi && 0 <= k <= hi - lo
    ensures var n := (hi - lo + 1) as real;
      0.0 <= k as real / n < 1.0 && Scale(k as real / n, lo, hi) == lo + k
  {
    var n := (hi - lo + 1) as real;
    var u := k as real / n;
    assert u * n == k as real;
    assert u < 1.0 by {
      assert k as real < n;
    }
  }

  /** The variate that selects slot `k` of a `0..n-1` draw. */
  function SlotVariate(k: int, n: int): (u: Variate)
    requires 0 <= k < n
    ensures Scale(u, 0, n - 1) == k
  {
    ScaleHits(0, n - 1, k);
    k as real / n as real
  }

  /** `nextInt(min, max)` for a range whose span fits in an `int`, where
      Java's `random.nextInt((max - min) + 1) + min` cannot fail. */
  function Uniform(g: Rng, min: int, max: int): (r: (int, Rng))
    requires min <= max
    ensures min <= r.0 <= max
    ensures r.0 == Scale(g.Current(), min, max)
    ensures r.1 == g.Advance()
  {
    (Scale(g.Current(), min, max), g.Advance())
  }

  const MIN_GREATER_THAN_MAX := "min must be <= max"
  const BOUND_NOT_POSITIVE := "bound must be positive"
  const BAD_PROBABILITY := "Probability must be between 0 and 1"

  /** `RandomUtil.nextInt(min, max)`.  The bound `(max - min) + 1` is
      computed in 32-bit arithmetic, and `Random.nextInt` rejects a bound
      that wrapped to zero or below. */
  function NextInt(g: Rng, min: Int32, max: Int32): (r: Result<(Int32, Rng)>)
    ensures r.Err? <==> min > max || max - min >= INT_MAX
    ensures min > max ==> r == Err(IllegalArgument(MIN_GREATER_THAN_MAX))
    ensures r.Ok? ==> min <= r.value.0 <= max && r.value.1 == g.Advance()
    ensures r.Ok? ==> r.value.0 == Scale(g.Current(), min, max)
    ensures min == max ==> r.Ok? && r.value.0 == min
  {
    if min > max then Err(IllegalArgument(MIN_GREATER_THAN_MAX))
    else
      var bound := Wrap32(Wrap32(max - min) + 1);
      if bound <= 0 then Err(IllegalArgument(BOUND_NOT_POSITIVE))
      else
        var (k, g') := Uniform(g, 0, bound - 1);
        Ok((min + k, g'))
  }

  /** A successful `nextInt(min, max)` is uniform: it answers `min + k`
      exactly when the variate falls in slot `k` of `max - min + 1`. */
  lemma NextIntUniform(g: Rng, min: Int32, max: Int32, k: int)
    requires NextInt(g, min, max).Ok? && 0 <= k <= max - min
    ensures NextInt(g, min, max).value.0 == min + k <==>
      k as real <= g.Current() * (max - min + 1) as real < (k + 1) as real
  {
    ScaleSlot(g.Current(), min, max, k);
  }

  /** `RandomUtil.nextDouble`. */
  function NextDouble(g: Rng): (r: (Variate, Rng))
    ensures r.0 == g.Current()
    ensures r.1 == g.Advance()
  {
    (g.Current(), g.Advance())
  }

  /** `RandomUtil.nextBoolean(p)`: true when the draw falls below `p`. */
  function NextBoolean(g: Rng, p: real): (r: Result<(bool, Rng)>)
    ensures r.Err? <==> p < 0.0 || p > 1.0
    ensures r.Err? ==> r == Err(IllegalArgument(BAD_PROBABILITY))
    ensures r.Ok? ==> r.value.1 == g.Advance()
    ensures r.Ok? ==> (r.value.0 <==> NextDouble(g).0 < p)
    ensures p == 0.0 ==> r == Ok((false, g.Advance()))
    ensures p == 1.0 ==> r == Ok((true, g.Advance()))
  {
    if p < 0.0 || p > 1.0 then Err(IllegalArgument(BAD_PROBABILITY))
    else
      var (u, g') := NextDouble(g);
      Ok((u < p, g'))
  }

  /** Each call reads only the single variate at the current position: two
      streams that agree there give the same answer and the same position. */
  lemma CallsReadOneDraw(g1: Rng, g2: Rng, min: Int32, max: Int32, p: real)
    requires g1.position == g2.position && g1.Current() == g2.Current()
    ensures NextInt(g1, min, max).Ok? ==>
      NextInt(g2, min, max).Ok?
      && NextInt(g2, min, max).value.0 == NextInt(g1, min, max).value.0
      && NextInt(g2, min, max).value.1.position == NextInt(g1, min, max).value.1.position
    ensures NextBoolean(g1, p).Ok? ==>
      NextBoolean(g2, p).Ok?
      && NextBoolean(g2, p).value.0 == NextBoolean(g1, p).value.0
      && NextBoolean(g2, p).value.1.position == NextBoolean(g1, p).value.1.position
  {
  }
}

=== FILE: time_pattern.dfy ===
/** `TimePatternCalculator`: the intensity of a date (a weekday/weekend
    factor times a season factor, capped at 2.0) and the deterministic burst
    days picked by a hash of the day of the year.  Doubles are reals. */
module TimePattern {
  import opened Calendar

  /** 0.5 on weekends, 1.2 on weekdays. */
  function WeekFactor(date: Date): real {
    if IsWeekend(date) then 0.5 else 1.2
  }

  function SeasonFactor(s: Season): real {
    match s
    case Winter => 0.8
    case Spring => 1.1
    case Summer => 0.7
    case Fall => 1.3
  }

  const INTENSITY_CAP: real := 2.0

  /** `getIntensityMultiplier`: the weekday/weekend factor times the season
      factor, capped at 2.0.  The largest product is 1.2 * 1.3 = 1.56, so
      the cap never binds and the result stays within [0.35, 1.56]. */
  function IntensityMultiplier(date: Date): (r: real)
    ensures 0.35 <= r <= 1.56 && r < INTENSITY_CAP
    ensures r == WeekFactor(date) * SeasonFactor(GetSeason(date))
    ensures IsWeekend(date) ==> r <= 0.65
    ensures !IsWeekend(date) ==> 0.84 <= r
  {
    var m := 1.0 * WeekFactor(date) * SeasonFactor(GetSeason(date));
    if m < INTENSITY_CAP then m else INTENSITY_CAP
  }

  /** Within one season a weekend day is strictly less intense than a weekday. */
  lemma WeekendBelowWeekday(weekend: Date, weekday: Date)
    requires IsWeekend(weekend) && IsWeekday(weekday)
    requires GetSeason(weekend) == GetSeason(weekday)
    ensures IntensityMultiplier(weekend) < IntensityMultiplier(weekday)
  {
    var s := GetSeason(weekend);
    assert IntensityMultiplier(weekend) == 0.5 * SeasonFactor(s);
    assert IntensityMultiplier(weekday) == 1.2 * SeasonFactor(s);
  }

  /** The burst hash `(dayOfYear * 17 + 13) % 100`; the day of the year is
      at most 366, so the `int` arithmetic neither overflows nor goes negative. */
  function BurstHash(dayOfYear: int): (h: int)
    requires 1 <= dayOfYear <= 366
    ensures 0 <= h <= 99
  {
    (dayOfYear * 17 + 13) % 100
  }

  /** `getBurstMultiplier`: 2.0 when the date's hash falls below
      `burstChance * 100`, else 1.0.  It reads nothing but the day of the year
      and the chance, so it draws nothing from the random stream. */
  function BurstMultiplier(date: Date, burstChance: real): (r: real)
    ensures r == 1.0 || r == 2.0
    ensures burstChance <= 0.0 ==> r == 1.0
    ensures burstChance >= 1.0 ==> r == 2.0
  {
    if BurstHash(DayOfYear(date)) as real < burstChance * 100.0 then 2.0 else 1.0
  }

  predicate IsBurstDay(date: Date, burstChance: real) {
    BurstMultiplier(date, burstChance) == 2.0
  }

  /** Dates that share a day of the year share their burst multiplier. */
  lemma BurstDependsOnDayOfYear(a: Date, b: Date, burstChance: real)
    requires DayOfYear(a) == DayOfYear(b)
    ensures BurstMultiplier(a, burstChance) == BurstMultiplier(b, burstChance)
  {
  }

  /** Raising the chance never turns a burst day into a quiet one. */
  lemma BurstMonotone(date: Date, low: real, high: real)
    requires low <= high
    ensures IsBurstDay(date, low) ==> IsBurstDay(date, high)
  {
  }

  /** The hash only depends on the day of the year modulo 100. */
  lemma BurstHashPeriodic(dayOfYear: int)
    requires 1 <= dayOfYear <= 366
    ensures BurstHash(dayOfYear) == (17 * (dayOfYear % 100) + 13) % 100
  {
    var q, r := dayOfYear / 100, dayOfYear % 100;
    var x := 17 * r + 13;
    var a, h := x / 100, x % 100;
    assert dayOfYear * 17 + 13 == 100 * (a + 17 * q) + h;
    RemainderOfHundreds(a + 17 * q, h);
  }

  lemma RemainderOfHundreds(a: int, h: int)
    requires 0 <= h < 100
    ensures (100 * a + h) % 100 == h
  {
  }


  /** The residues `r` of 0..99 whose hash `(17 r + 13) % 100` is below 5. */
  lemma {:induction false} LowHashResidues(r: int)
    requires 0 <= r < 100
    ensures (17 * r + 13) % 100 < 5 <==> r in {11, 17, 23, 64, 70}
  {
    var k := (17 * r + 13) / 100;
    assert 0 <= k <= 16;
    assert (17 * r + 13) % 100 == 17 * r + 13 - 100 * k;
  }

  /** With the 5% chance the generator uses, a date bursts exactly when its
      day of the year is 11, 17, 23, 64 or 70 modulo 100; for example day 11
      bursts and day 1 does not. */
  lemma BurstDaysAtFivePercent(date: Date)
    ensures IsBurstDay(date, 0.05) <==> DayOfYear(date) % 100 in {11, 17, 23, 64, 70}
  {
    var doy := DayOfYear(date);
    BurstHashPeriodic(doy);
    LowHashResidues(doy % 100);
  }
}

=== FILE: validator.dfy ===
/** `ConfigurationValidator.validate`: a fixed sequence of checks, run in
    order, that either all pass or report the message of the first that
    fails.  The method throws; here the outcome is a value. */
module Validator {
  import opened JavaLang
  import opened Config

  /** `String.trim` counts every character up to U+0020 as blank. */
  predicate IsBlank(ch: char) {
    ch <= ' '
  }

  /** The first loop of `trim`: from `i`, skip blank characters; the index
      of the first character kept, or `|s|`. */
  function FirstKept(s: string, i: nat): (k: nat)
    requires i <= |s|
    ensures i <= k <= |s|
    ensures forall j | i <= j < k :: IsBlank(s[j])
    ensures k == |s| || !IsBlank(s[k])
    decreases |s| - i
  {
    if i < |s| && IsBlank(s[i]) then FirstKept(s, i + 1) else i
  }

  /** The second loop of `trim`: move the end `e` back over blank characters,
      never past `lo`; the end of the kept part. */
  function LastKept(s: string, lo: nat, e: nat): (r: nat)
    requires lo <= e <= |s|
    ensures lo <= r <= e
    ensures forall j | r <= j < e :: IsBlank(s[j])
    ensures r == lo || !IsBlank(s[r - 1])
    decreases e
  {
    if e > lo && IsBlank(s[e - 1]) then LastKept(s, lo, e - 1) else e
  }

  /** How many blank characters `trim` drops at the front. */
  function LeadingBlanks(s: string): nat {
    FirstKept(s, 0)
  }

  /** `String.trim`: the slice left once blanks are dropped at both ends;
      everything dropped is blank and what is kept starts and ends with a
      non-blank character. */
  function Trim(s: string): (r: string)
    ensures LeadingBlanks(s) + |r| <= |s|
    ensures r == s[LeadingBlanks(s)..LeadingBlanks(s) + |r|]
    ensures forall i | 0 <= i < LeadingBlanks(s) :: IsBlank(s[i])
    ensures forall i | LeadingBlanks(s) + |r| <= i < |s| :: IsBlank(s[i])
    ensures r == [] || (!IsBlank(r[0]) && !IsBlank(r[|r| - 1]))
  {
    var k := FirstKept(s, 0);
    var e := LastKept(s, k, |s|);
    s[k..e]
  }

  /** `trim().isEmpty()` holds exactly when every character is blank. */
  lemma TrimEmptyIffBlank(s: string)
    ensures Trim(s) == [] <==> forall i | 0 <= i < |s| :: IsBlank(s[i])
  {
  }

  /** The test of lines 23 and 27: null, or nothing left after trimming. */
  predicate MissingText(s: Option<string>) {
    s.None? || Trim(s.value) == []
  }

  /** The checks of `validate` after the null test, in source order. */
  datatype Check =
    | NameGiven | EmailGiven | YearsBackPositive | MinNonNegative | MaxAtLeastMin
    | ProbabilityInRange | BoostNonNegative | ReductionNonNegative | DatesOrdered

  const CHECK_ORDER: seq<Check> := [
    NameGiven, EmailGiven, YearsBackPositive, MinNonNegative, MaxAtLeastMin,
    ProbabilityInRange, BoostNonNegative, ReductionNonNegative, DatesOrdered
  ]

  predicate Passes(k: Check, c: HistoryConfig) {
    match k
    case NameGiven => !MissingText(c.authorName)
    case EmailGiven => !MissingText(c.authorEmail)
    case YearsBackPositive => c.yearsBack >= 1
    case MinNonNegative => c.commitsPerDayMin >= 0
    case MaxAtLeastMin => c.commitsPerDayMax >= c.commitsPerDayMin
    case ProbabilityInRange => 0.0 <= c.contributionProbability <= 1.0
    case BoostNonNegative => c.weekdayProbabilityBoost >= 0.0
    case ReductionNonNegative => c.weekendProbabilityReduction >= 0.0
    case DatesOrdered =>
      c.startDate.None? || c.endDate.None? || c.startDate.value <= c.endDate.value
  }

  function MessageOf(k: Check): string {
    match k
    case NameGiven => "Author name cannot be empty"
    case EmailGiven => "Author email cannot be empty"
    case YearsBackPositive => "Years back must be at least 1"
    case MinNonNegative => "Commits per day minimum cannot be negative"
    case MaxAtLeastMin => "Commits per day max must be >= min"
    case ProbabilityInRange => "Contribution probability must be between 0 and 1"
    case BoostNonNegative => "Weekday probability boost cannot be negative"
    case ReductionNonNegative => "Weekend probability reduction cannot be negative"
    case DatesOrdered => "Start date cannot be after end date"
  }

  const NULL_CONFIG := "Configuration cannot be null"

  /** The length and last character of each message, which already tell
      the messages apart. */
  function MessageKey(k: Check): (int, char) {
    match k
    case NameGiven => (27, 'y')
    case EmailGiven => (28, 'y')
    case YearsBackPositive => (29, '1')
    case MinNonNegative => (42, 'e')
    case MaxAtLeastMin => (34, 'n')
    case ProbabilityInRange => (48, '1')
    case BoostNonNegative => (44, 'e')
    case ReductionNonNegative => (48, 'e')
    case DatesOrdered => (35, 'e')
  }

  lemma MessageHasKey(k: Check)
    ensures var m := MessageOf(k); |m| == MessageKey(k).0 && m[|m| - 1] == MessageKey(k).1
  {
  }

  /** The checks are told apart by their messages. */
  lemma MessagesDistinct(a: Check, b: Check)
    requires MessageOf(a) == MessageOf(b)
    ensures a == b
  {
    MessageHasKey(a);
    MessageHasKey(b);
  }

  /** No check reports the message of the null test. */
  lemma NullMessageUnused(k: Check)
    ensures MessageOf(k) != NULL_CONFIG
  {
    MessageHasKey(k);
    assert |NULL_CONFIG| == 28 && NULL_CONFIG[27] == 'l';
  }

  /** The first check of `checks`, from index `from` on, that `c` fails. */
  function FirstFailure(checks: seq<Check>, c: HistoryConfig, from: nat): (r: Option<nat>)
    requires from <= |checks|
    ensures r.Some? ==>
      && from <= r.value < |checks|
      && !Passes(checks[r.value], c)
      && forall j | from <= j < r.value :: Passes(checks[j], c)
    ensures r.None? <==> forall j | from <= j < |checks| :: Passes(checks[j], c)
    decreases |checks| - from
  {
    if from == |checks| then None
    else if !Passes(checks[from], c) then Some(from)
    else FirstFailure(checks, c, from + 1)
  }

  datatype Outcome = Pass | Fail(message: string)

  /** The reference reading of `validate`: the message of the first failing
      check of `CHECK_ORDER`, or success. */
  function ByFirstFailure(c: HistoryConfig): Outcome {
    match FirstFailure(CHECK_ORDER, c, 0)
    case None => Pass
    case Some(i) => Fail(MessageOf(CHECK_ORDER[i]))
  }

  /** `validate`, one `if` per check as in the source. */
  function Validate(config: Option<HistoryConfig>): (r: Outcome)
    ensures config.None? <==> r == Fail(NULL_CONFIG)
  {
    if config.None? then Fail(NULL_CONFIG)
    else
      var c := config.value;
      assert forall k :: MessageOf(k) != NULL_CONFIG by {
        forall k ensures MessageOf(k) != NULL_CONFIG { NullMessageUnused(k); }
      }
      if MissingText(c.authorName) then
        Fail(MessageOf(NameGiven))
      else if MissingText(c.authorEmail) then
        Fail(MessageOf(EmailGiven))
      else if c.yearsBack < 1 then
        Fail(MessageOf(YearsBackPositive))
      else if c.commitsPerDayMin < 0 then
        Fail(MessageOf(MinNonNegative))
      else if c.commitsPerDayMax < c.commitsPerDayMin then
        Fail(MessageOf(MaxAtLeastMin))
      else if c.contributionProbability < 0.0 || c.contributionProbability > 1.0 then
        Fail(MessageOf(ProbabilityInRange))
      else if c.weekdayProbabilityBoost < 0.0 then
        Fail(MessageOf(BoostNonNegative))
      else if c.weekendProbabilityReduction < 0.0 then
        Fail(MessageOf(ReductionNonNegative))
      else if c.startDate.Some? && c.endDate.Some? && c.startDate.value > c.endDate.value then
        Fail(MessageOf(DatesOrdered))
      else Pass
  }

  lemma SkipPassing(c: HistoryConfig, i: nat)
    requires i < |CHECK_ORDER| && Passes(CHECK_ORDER[i], c)
    ensures FirstFailure(CHECK_ORDER, c, i) == FirstFailure(CHECK_ORDER, c, i + 1)
  {
  }

  /** The `if` chain stops at the first failing check: one lemma per check. */
  lemma StopsAtNameGiven(c: HistoryConfig)
    requires !Passes(NameGiven, c)
    ensures Validate(Some(c)) == Fail(MessageOf(NameGiven))
  {
  }

  lemma StopsAtEmailGiven(c: HistoryConfig)
    requires Passes(NameGiven, c)
    requires !Passes(EmailGiven, c)
    ensures Validate(Some(c)) == Fail(MessageOf(EmailGiven))
  {
  }

  lemma StopsAtYearsBackPositive(c: HistoryConfig)
    requires Passes(NameGiven, c) && Passes(EmailGiven, c)
    requires !Passes(YearsBackPositive, c)
    ensures Validate(Some(c)) == Fail(MessageOf(YearsBackPositive))
  {
  }

  lemma StopsAtMinNonNegative(c: HistoryConfig)
    requires Passes(NameGiven, c) && Passes(EmailGiven, c) && Passes(YearsBackPositive, c)
    requires !Passes(MinNonNegative, c)
    ensures Validate(Some(c)) == Fail(MessageOf(MinNonNegative))
  {
  }

  lemma StopsAtMaxAtLeastMin(c: HistoryConfig)
    requires Passes(NameGiven, c) && Passes(EmailGiven, c) && Passes(YearsBackPositive, c) && Passes(MinNonNegative, c)
    requires !Passes(MaxAtLeastMin, c)
    ensures Validate(Some(c)) == Fail(MessageOf(MaxAtLeastMin))
  {
  }

  lemma StopsAtProbabilityInRange(c: HistoryConfig)
    requires Passes(NameGiven, c) && Passes(EmailGiven, c) && Passes(YearsBackPositive, c) && Passes(MinNonNegative, c) && Passes(MaxAtLeastMin, c)
    requires !Passes(ProbabilityInRange, c)
    ensures Validate(Some(c)) == Fail(MessageOf(ProbabilityInRange))
  {
  }

  lemma StopsAtBoostNonNegative(c: HistoryConfig)
    requires Passes(NameGiven, c) && Passes(EmailGiven, c) && Passes(YearsBackPositive, c) && Passes(MinNonNegative, c) && Passes(MaxAtLeastMin, c) && Passes(ProbabilityInRange, c)
    requires !Passes(BoostNonNegative, c)
    ensures Validate(Some(c)) == Fail(MessageOf(BoostNonNegative))
  {
  }

  lemma StopsAtReductionNonNegative(c: HistoryConfig)
    requires Passes(NameGiven, c) && Passes(EmailGiven, c) && Passes(YearsBackPositive, c) && Passes(MinNonNegative, c) && Passes(MaxAtLeastMin, c) && Passes(ProbabilityInRange, c) && Passes(BoostNonNegative, c)
    requires !Passes(ReductionNonNegative, c)
    ensures Validate(Some(c)) == Fail(MessageOf(ReductionNonNegative))
  {
  }

  lemma StopsAtDatesOrdered(c: HistoryConfig)
    requires Passes(NameGiven, c) && Passes(EmailGiven, c) && Passes(YearsBackPositive, c) && Passes(MinNonNegative, c) && Passes(MaxAtLeastMin, c) && Passes(ProbabilityInRange, c) && Passes(BoostNonNegative, c) && Passes(ReductionNonNegative, c)
    requires !Passes(DatesOrdered, c)
    ensures Validate(Some(c)) == Fail(MessageOf(DatesOrdered))
  {
  }

  lemma ChainPasses(c: HistoryConfig)
    requires Passes(NameGiven, c) && Passes(EmailGiven, c) && Passes(YearsBackPositive, c) && Passes(MinNonNegative, c) && Passes(MaxAtLeastMin, c) && Passes(ProbabilityInRange, c) && Passes(BoostNonNegative, c) && Passes(ReductionNonNegative, c) && Passes(DatesOrdered, c)
    ensures Validate(Some(c)) == Pass
  {
    assert !MissingText(c.authorName) && !MissingText(c.authorEmail);
    assert !(c.contributionProbability < 0.0 || c.contributionProbability > 1.0);
    assert !(c.startDate.Some? && c.endDate.Some? && c.startDate.value > c.endDate.value);
  }

  /** The `if` chain of `validate` reports exactly the first failing check
      of `CHECK_ORDER`. */
  lemma ValidateReportsFirstFailure(c: HistoryConfig)
    ensures Validate(Some(c)) == ByFirstFailure(c)
  {
    var k := CHECK_ORDER;
    match FirstFailure(k, c, 0)
    case None =>
      assert forall j | 0 <= j < |k| :: Passes(k[j], c);
      ChainPasses(c);
    case Some(i) =>
      if i == 0 { StopsAtNameGiven(c); }
      else {
        assert Passes(k[0], c);
        if i == 1 { StopsAtEmailGiven(c); }
        else {
          assert Passes(k[1], c);
          if i == 2 { StopsAtYearsBackPositive(c); }
          else {
            assert Passes(k[2], c);
            if i == 3 { StopsAtMinNonNegative(c); }
            else {
              assert Passes(k[3], c);
              if i == 4 { StopsAtMaxAtLeastMin(c); }
              else {
                assert Passes(k[4], c);
                if i == 5 { StopsAtProbabilityInRange(c); }
                else {
                  assert Passes(k[5], c);
                  if i == 6 { StopsAtBoostNonNegative(c); }
                  else {
                    assert Passes(k[6], c);
                    if i == 7 { StopsAtReductionNonNegative(c); }
                    else {
                      assert Passes(k[7], c);
                      StopsAtDatesOrdered(c);
                    }
                  }
                }
              }
            }
          }
        }
      }
  }

  /** Every check holds. */
  predicate IsValidConfig(c: HistoryConfig) {
    forall k | k in CHECK_ORDER :: Passes(k, c)
  }

  /** `validate` succeeds exactly when every check holds; when it fails, its
      message is that of a failing check all of whose predecessors pass. */
  lemma ValidateSpec(c: HistoryConfig)
    ensures Validate(Some(c)) == Pass <==> IsValidConfig(c)
    ensures Validate(Some(c)).Fail? ==>
      exists i | 0 <= i < |CHECK_ORDER| ::
        && Validate(Some(c)).message == MessageOf(CHECK_ORDER[i])
        && !Passes(CHECK_ORDER[i], c)
        && forall j | 0 <= j < i :: Passes(CHECK_ORDER[j], c)
  {
    ValidateReportsFirstFailure(c);
    if FirstFailure(CHECK_ORDER, c, 0).None? {
      forall k | k in CHECK_ORDER ensures Passes(k, c) {
        var j :| 0 <= j < |CHECK_ORDER| && CHECK_ORDER[j] == k;
      }
    } else {
      var i := FirstFailure(CHECK_ORDER, c, 0).value;
      assert !Passes(CHECK_ORDER[i], c);
    }
  }

  /** A validated configuration has the ranges the generators rely on. */
  lemma ValidConfigRanges(c: HistoryConfig)
    requires Validate(Some(c)) == Pass
    ensures c.authorName.Some? && c.authorEmail.Some?
    ensures 1 <= c.yearsBack && 0 <= c.commitsPerDayMin <= c.commitsPerDayMax
    ensures 0.0 <= c.contributionProbability <= 1.0
    ensures 0.0 <= c.weekdayProbabilityBoost && 0.0 <= c.weekendProbabilityReduction
    ensures c.startDate.Some? && c.endDate.Some? ==> c.startDate.value <= c.endDate.value
  {
  }

  /** A freshly constructed configuration passes, its null dates skipping the
      order check. */
  lemma DefaultConfigIsValid()
    ensures Validate(Some(DEFAULT_CONFIG)) == Pass
  {
    assert Trim("Contribution Bot") != [] by {
      TrimEmptyIffBlank("Contribution Bot");
      assert !IsBlank("Contribution Bot"[0]);
    }
    assert Trim("bot@example.com") != [] by {
      TrimEmptyIffBlank("bot@example.com");
      assert !IsBlank("bot@example.com"[0]);
    }
  }
}
